=== FILE: README.md ===
# Multi-energy microgrid step engine in Dafny

This project models the per-timestep physics engine of a small multi-energy
microgrid. The engine has two buses:

- an electrical bus: photovoltaic array, wind turbine, battery and grid tie;
- a thermal bus: combined heat-and-power unit (CHP), hot-water thermal
  energy storage (TES) and auxiliary boiler.

Each component is a pure function from its parameters, its state and a
command to its next state. The system step (`Engine.StepUnder`) does the
following, in the source's order:

1. dispatches every component;
2. settles the grid exchange from the electrical balance and clips it to the
   grid's import and export limits;
3. lets the store take up the thermal mismatch;
4. prices the step;
5. raises the six constraint flags.

`Engine.Run` chains steps over a sequence of inputs.

All quantities are `real`. `np.clip(x, lo, hi)` is `Numeric.Clip`, which
returns `hi` when `lo > hi`, as numpy does. Python's in-place mutation of
component objects is modelled by returning the new component records.

Modules follow the source's classes:

- `Parameters`: the parameter records, their defaults and their
  construction-time assertions;
- `Renewables`, `Battery`, `Grid`, `Chp`, `ThermalStorage`, `Boiler`;
- `Engine`: the integrated system;
- `Scenarios`: the demonstration step and the situations the test suite
  sets up, computed exactly on the default configuration. As written, the
  default configuration never reaches a step: its `soc_max` of 1.00 fails
  the battery's `soc_max < 1` assertion (components/microgrid_components.py:72,
  `Parameters.DefaultsRejected`), so the constructor raises in the
  demonstration and in the test suite alike. The scenarios are the values
  the step computes on the defaults once they are admitted, by running
  with assertions disabled (`python -O`) or under the corrected check
  `soc_max <= 1` (`Parameters.CorrectedValidityWidens`).

The step is modelled twice, selected by `Engine.Accounting`:

- `AsWritten`: exactly as the code does it.
- `Corrected`: the battery's actual signed power enters the balance, and the
  exchange is priced under the step's own sign convention.

`Engine.Step` is the as-written step. Every general lemma about the step
(balances, flags, runs) is stated for both accountings. The Findings below
compare the two.

Three consequences of the code are worth knowing:

- In the demonstration hour (components/microgrid_components.py:881-927),
  once the default configuration is admitted (see `Scenarios` above), the
  array produces 7.648 kW and the turbine 16.464 kW; see
  `Scenarios.DemoStepElectrical`.
- PV output is not monotone in irradiance. The cell-temperature estimate
  (components/microgrid_components.py:251) rises with irradiance, and the
  derating it feeds (line 254) eventually outweighs the extra light; see
  `Scenarios.PvNotMonotoneInIrradiance`.
- The CHP's minimum-load snap (components/microgrid_components.py:512-517)
  is applied after the ramp limit, so it can move a running unit further
  than its ramp; see `Chp.SnapCanExceedRamp`.

## Model

| member | source | states |
|---|---|---|
| Parameters.DtHours | components/microgrid_components.py:193-196 | the step length in hours is the configured minutes divided by sixty (`h * 60 == minutes`) |
| Parameters.Validate | components/microgrid_components.py:68-173 | construction passes exactly when every record's assertions hold; otherwise it fails with the error of the first failing assertion in field order (battery, CHP, store, boiler, grid), and each error is returned exactly when its own condition fails and all earlier ones hold |
| Parameters.DefaultsRejected | components/microgrid_components.py:52-73 | the default configuration fails the battery's SOC-limit assertion: an upper limit of 1.00 is not strictly below one |
| Parameters.CorrectedValidityWidens | components/microgrid_components.py:72 | every configuration accepted as written is valid under `soc_max <= 1`; the defaults are valid and physical; with `soc_max < 1` the two notions coincide |
| Renewables.PvOutput | components/microgrid_components.py:233-260 | PV output is zero without irradiance and non-negative for non-negative irradiance and area |
| Renewables.WindOutput | components/microgrid_components.py:287-306 | the turbine gives nothing outside the 3-25 m/s band and the cubic law inside it |
| Renewables.WindCubicLaw | components/microgrid_components.py:299-306 | inside the band, output ratios are the ratios of the cubed wind speeds, whatever the turbine parameters |
| Renewables.WindFifteenOverTen | tests/test_memg_validation.py:112-119 | output at 15 m/s is exactly 3.375 times the output at 10 m/s |
| Renewables.WindMonotoneInBand | components/microgrid_components.py:299-306 | with non-negative turbine parameters, output does not decrease with wind speed inside the band |
| Renewables.WindNonNegative | components/microgrid_components.py:299-306 | with non-negative turbine parameters, the turbine never produces negative power |
| Renewables.PvNonIncreasingInAmbient | components/microgrid_components.py:251-258 | with a non-positive temperature coefficient, a warmer day never yields more PV power |
| Renewables.PvStrictlyDeratedWhenHotter | tests/test_memg_validation.py:83-91 | with a negative coefficient, a hotter day yields strictly less power unless the derated efficiency has hit zero |
| Battery.ClipCommand | components/microgrid_components.py:361 | the power actually applied lies within the rating, keeps the command's direction, equals the command inside the rating and the nearer limit outside it |
| Battery.UpdateSoc | components/microgrid_components.py:347-382 | after any update the SOC lies in its band and the reported power is the clipped command |
| Battery.ChargeStep | components/microgrid_components.py:363-368 | from inside the band, a charge raises the SOC by the stored energy per capacity, capped at the upper limit |
| Battery.DischargeStep | components/microgrid_components.py:370-376 | from inside the band, a discharge lowers the SOC by the drawn energy per capacity, floored at the lower limit |
| Battery.UpdateIsSaturatedStateEquation | components/microgrid_components.py:309-326 | the update is the class docstring's state equation `SOC + (eta_c P_c - P_d / eta_d) dt / E`, fed the clipped command, then clamped to the band |
| Battery.UpdateMovesTowardCommand | components/microgrid_components.py:347-382 | charging never lowers the SOC, discharging never raises it, and a zero command leaves it unchanged |
| Battery.LargeRequestLandsOnBound | components/microgrid_components.py:363-379 | a request larger than the headroom lands exactly on the bound; a smaller one moves the SOC by exactly its energy |
| Battery.RepeatedCharge | tests/test_memg_validation.py:145-156 | `n` identical charge steps move the SOC linearly in `n` until it reaches the upper limit, then stay there |
| Battery.RepeatedDischarge | tests/test_memg_validation.py:145-156 | `n` identical discharge steps move the SOC linearly in `n` until it reaches the lower limit, then stay there |
| Battery.AvailableChargePower | components/microgrid_components.py:384-388 | the reported charge power is within the rating, and its stored energy fits in the headroom, exactly filling it unless the rating binds |
| Battery.AvailableDischargePower | components/microgrid_components.py:390-394 | the reported discharge power is within the rating, and its drawn energy fits above the floor, exactly emptying it unless the rating binds |
| Battery.AvailableChargeIsExact | components/microgrid_components.py:384-388 | commanding the available charge power is never cut short, and it reaches the upper limit whenever the rating does not bind |
| Battery.AvailableDischargeIsExact | components/microgrid_components.py:390-394 | commanding the available discharge power is never cut short, and it reaches the floor whenever the rating does not bind |
| Grid.Cost | components/microgrid_components.py:416-441 | zero exchange costs nothing; negative power (bought, in this function's convention) is an expense and positive power (sold) is revenue, at the effective prices; when buying costs no more than selling pays, the cost is the smaller of pricing the exchange at either rate |
| Grid.CostIsConvexEnvelope | components/microgrid_components.py:436-441 | when buying costs at least as much as selling pays, the cost is the larger of the two linear tariffs: a convex function of the exchange |
| Grid.OverridesOnlyWhenGiven | components/microgrid_components.py:431-434 | absent overrides mean the configured prices; given overrides make the configured ones irrelevant |
| Chp.Limit | components/microgrid_components.py:502-510 | the limited set-point lies within `[0, max]`; from off it is the plain clip of the command; while running it stays within one ramp of the previous output, and a command inside ramp and rating passes unchanged |
| Chp.Snap | components/microgrid_components.py:512-517 | a value below the minimum load goes to whichever of 0 and the minimum load is nearer, ties going to the minimum load; other values are untouched |
| Chp.SetPower | components/microgrid_components.py:490-522 | the heat output is `eta_thermal` times the electrical output, which is zero or at least the minimum load, and within the rating when the minimum load is |
| Chp.FuelCost | components/microgrid_components.py:524-526 | the hourly fuel cost is zero when off, non-negative, and proportional to the heat output through `eta_thermal` |
| Chp.RampRespectedUnlessSnapped | components/microgrid_components.py:502-517 | a running unit moves by at most one ramp unless the minimum-load snap fires |
| Chp.FromOffIgnoresRamp | components/microgrid_components.py:502-510 | from off, any command between the minimum load and the rating is reached in one step |
| Chp.SnapCanExceedRamp | components/microgrid_components.py:502-517 | a unit at 6 kW with a 4 kW ramp commanded to stop goes straight to 0, beyond its ramp |
| Chp.StuckAtMinLoad | components/microgrid_components.py:502-517 | a unit running anywhere between its minimum load and its rating, with a ramp-down of at most half the minimum load, stays in that range after any one command: it cannot switch off |
| Chp.NeverSwitchesOff | components/microgrid_components.py:502-517 | under the same condition, no sequence of commands of any length ever switches the unit off |
| ThermalStorage.Capacitance | components/microgrid_components.py:565 | the thermal capacitance is positive and spreads the energy capacity over the temperature band |
| ThermalStorage.Initial | components/microgrid_components.py:568 | a fresh store sits at the midpoint of its band |
| ThermalStorage.HeatLoss | components/microgrid_components.py:592-593 | the loss is non-negative, zero at or below ambient, positive above |
| ThermalStorage.UpdateTemperature | components/microgrid_components.py:600-602 | after any update the temperature lies in the band |
| ThermalStorage.UpdateIsSaturatedStateEquation | components/microgrid_components.py:586-602 | for flows within the ratings, the update is the class docstring's state equation `T + (Q_in - Q_loss - Q_out) dt / C` clamped to the band; a heat input above the charge rating acts as the rating and a negative one as none, and likewise a draw against the discharge rating |
| ThermalStorage.TemperatureMonotone | components/microgrid_components.py:570-602 | more heat in or less heat out never yields a cooler store |
| ThermalStorage.NoInputNeverWarms | components/microgrid_components.py:588-600 | without heat input the store never warms |
| ThermalStorage.IdleStoreCools | components/microgrid_components.py:591-600 | an idle store above ambient and above its floor strictly cools |
| ThermalStorage.AvailableCharge | components/microgrid_components.py:604-608 | the reported charge heat is within the rating, raises the temperature by at most the margin to the top, and by exactly that margin unless the rating binds |
| ThermalStorage.AvailableDischarge | components/microgrid_components.py:610-614 | the reported discharge heat is within the rating, lowers the temperature by at most the margin to the floor, and by exactly that margin unless the rating binds |
| ThermalStorage.AvailableChargeFills | components/microgrid_components.py:604-608 | charging the store at its available heat, with nothing drawn, lands it one step of standing loss below its maximum (never below its minimum) unless the rating binds; a store at or below ambient lands exactly on its maximum |
| ThermalStorage.AvailableDischargeEmpties | components/microgrid_components.py:610-614 | discharging the store at its available heat, with nothing charged, lands it exactly on its minimum temperature unless the rating binds, whatever its temperature relative to ambient |
| Boiler.SetPower | components/microgrid_components.py:637-650 | the heat output lies within the rating, equals the command inside it, and the nearer limit outside it |
| Boiler.FuelCost | components/microgrid_components.py:652-654 | the fuel cost times the efficiency is the heat times the fuel price; it is non-negative |
| Boiler.SetPowerIdempotent | components/microgrid_components.py:649 | re-commanding the boiler with its own output changes nothing |
| Boiler.CostMonotoneInCommand | components/microgrid_components.py:637-654 | a larger command never yields less heat or a smaller fuel bill |
| Engine.Init | components/microgrid_components.py:690-721 | the fresh system satisfies the state invariant exactly when 50 % SOC lies within the battery's band |
| Engine.LimitGrid | components/microgrid_components.py:780-784 | the exchange never exceeds the import limit when buying or the export limit when selling, never exceeds the request in magnitude, and passes a request inside both limits unchanged |
| Engine.ElectricalBus | components/microgrid_components.py:758-784 | the electrical half of the step: the battery and CHP keep their own guarantees, the load is floored at zero, and the exchange is the limited request |
| Engine.StoreFlows | components/microgrid_components.py:795-803 | the store never charges and discharges at once; it covers a deficit in full exactly when its available discharge suffices, and absorbs a surplus in full exactly when its available charge suffices |
| Engine.ThermalBus | components/microgrid_components.py:788-806 | the thermal half of the step: the store stays in its band, the boiler within its rating, and the flows are those the store can take |
| Engine.GridCost | components/microgrid_components.py:810 | as written, positive exchange (bought, in the step's convention) is booked as revenue and negative exchange as an expense; corrected, the other way round |
| Engine.Count | components/microgrid_components.py:817-859 | the violation count is at most six and is zero exactly when no flag is raised |
| Engine.Check | components/microgrid_components.py:817-824 | the state flags cannot fire on states in their bands; the load flags fire exactly when supply plus full import, or heat plus rated discharge, falls short |
| Engine.StepUnder | components/microgrid_components.py:723-862 | every step keeps the state invariant, reports consistent fields, never charges and discharges the store at once, respects the grid limits and the CHP rating on a physical configuration, reports non-negative store flows from a state inside the invariant, totals its costs, and raises at most the two load flags |
| Engine.StepParts | components/microgrid_components.py:756-824 | the step's report and next state are those of the electrical bus, then the thermal bus, then the cost and flag checks, in that order |
| Engine.Step | components/microgrid_components.py:723-862 | the as-written step keeps the invariant, respects the grid limits and the CHP rating on a physical configuration, reports non-negative store flows that are never both non-zero, and totals its costs |
| Engine.Run | tests/test_memg_validation.py:372-397 | a run reports one consistent record per input, keeps the invariant after any non-empty run, respects the grid limits and the CHP rating on a physical configuration, and reports non-negative store flows when it starts inside the invariant |
| Engine.RunAppend | tests/test_memg_validation.py:372-397 | running two input sequences back to back is running their concatenation: the step carries no hidden state |
| Engine.AsWrittenElectricalBalance | components/microgrid_components.py:775-778 | when the grid limits do not bind, the as-written balance charges the raw command on charge and counts the discharge as a consumer |
| Engine.CorrectedElectricalBalance | components/microgrid_components.py:769-778 | when the grid limits do not bind, supply plus import equals load plus the battery's actual signed power |
| Engine.AccountingsDiffer | components/microgrid_components.py:769-778 | the two accountings request the same import exactly when the battery command is a charge within the rating; a discharge of `p` is counted as `2|p|` extra import |
| Engine.ThermalBalance | components/microgrid_components.py:795-806 | when the store can take up the whole mismatch, CHP plus boiler plus store output equals the heat load plus store input |
| Engine.CleanStepIff | components/microgrid_components.py:817-859 | a step reports no violations exactly when both buses could be covered by their rated reserves |
| Engine.CleanWhenRatingsCover | components/microgrid_components.py:822-823 | loads within the import rating and the store's discharge rating are never flagged, whatever the weather and set-points |
| Engine.GridCostSignAsWritten | components/microgrid_components.py:774-810 | as written, a step that buys at a positive sell price reports a negative bill, and one that sells at a positive buy price reports a positive bill |
| Engine.GridCostSignCorrected | components/microgrid_components.py:774-810 | corrected, buying is an expense and selling is revenue |
| Scenarios.DemoStepElectrical | components/microgrid_components.py:881-927 | the demonstration hour yields 7.648 kW PV, 16.464 kW wind, CHP at 10/5 kW, SOC 0.595, and exports 14.112 kW |
| Scenarios.DemoStepThermal | components/microgrid_components.py:881-927 | in the demonstration hour the store covers the 3 kW heat deficit and cools from 55 to 50.9 degrees |
| Scenarios.DemoStepCosts | components/microgrid_components.py:881-927 | the demonstration hour's export is billed 2.1168 at the buy price; fuel costs 0.5 for the CHP and 0.16/0.85 for the boiler |
| Scenarios.DemoStepClean | components/microgrid_components.py:881-927 | nothing is flagged in the demonstration hour |
| Scenarios.BatterySaturates | tests/test_memg_validation.py:145-156 | at half-hour steps, full charge reaches 100 % in three steps and full discharge reaches 20 % in four, and both stay there |
| Scenarios.RoundTripRatio | tests/test_memg_validation.py:158-178 | the round-trip experiment recovers 3.95 times the nominal 5 kWh, not about 90 %, because it drains to the floor |
| Scenarios.ChpFromCold | tests/test_memg_validation.py:182-201 | from cold, 10 kW gives 5 kW of heat, 100 kW is held at 15 kW, and zero gives no heat |
| Scenarios.StoreLosesHeat | tests/test_memg_validation.py:244-255 | an idle hour at 65 degrees ends at 60.5 degrees |
| Scenarios.NormalOperationClean | tests/test_memg_validation.py:309-326 | the normal-operation hour raises no flag |
| Scenarios.PvAtStandardConditions | tests/test_memg_validation.py:76-81 | at 1000 W/m^2 and 25 degrees the array gives 9.2 kW, not the 10 kW the test expects |
| Scenarios.PvColdAndHot | tests/test_memg_validation.py:83-91 | the derating test's days give 9.8 kW at 10 degrees and 8.6 kW at 40 |
| Scenarios.PvNotMonotoneInIrradiance | components/microgrid_components.py:251-258 | 5000 W/m^2 gives 31 kW but 10000 W/m^2 only 22 kW at 20 degrees ambient |
| Scenarios.BuyingImport | tests/test_memg_validation.py:330-345 | in the grid-buying test's hour both accountings import 20.09978125 kW |
| Scenarios.BuyingStepEarns | tests/test_memg_validation.py:330-349 | as written, that hour imports 20.1 kW and reports a grid bill of -1.6079825 |
| Scenarios.BuyingStepPaysWhenCorrected | tests/test_memg_validation.py:330-349 | corrected, the same hour's bill is 3.0149671875 |
| Scenarios.SurplusCostsAsWritten | tests/test_memg_validation.py:351-368 | as written, the total-cost test's hour costs 1.3768625 + 0.12/0.85, because its export is billed at the buy price |
| Scenarios.SurplusEarnsWhenCorrected | tests/test_memg_validation.py:351-368 | corrected, the same hour's total is about -0.056, below the test's -0.01 tolerance |

## Left out

- Floating point: every quantity is an exact real. Python's IEEE rounding and the test suite's tolerances are not modelled.
- Parameters the engine stores but never uses are not modelled: the battery's round-trip efficiency and cycle-life fields, the CHP's start-up time, the grid's dynamic-price flag, and the CHP's `on` and `startup_counter` fields.
- The CHP's electrical efficiency is a field and is validated (`Parameters.Validate`), but, as in the code, it never enters the dynamics or the fuel cost, which is `p_elec * fuel_cost`.
- The CHP ramp rate is commented as kW/min in its record (components/microgrid_components.py:88-89) but is multiplied by the step length in hours. The model reproduces this as written; the intended unit is not evident.
- The CHP's minimum-load snap can exceed the ramp, and can keep a running unit from ever switching off (`Chp.SnapCanExceedRamp`, `Chp.NeverSwitchesOff`). Both are kept as written.
- The four state flags can never fire, because every component clamps its own state (`Engine.StepUnder`). They are kept as written.
- The step's tracking attributes (`p_pv`, `cost_total` and so on) are kept only as fields of the returned report, not as mutable state.
- `get_system_info`, the demonstration's printing, CSV export and the profile generators of the daily-simulation example are output glue.
- Profiles computed with `np.sin` in the continuous-operation test are not modelled. `Engine.Run` takes any input sequence instead.
- Python assertions disappear under `python -O`. The model treats the parameter assertions as always active (`Parameters.Validate`), and the step requires a configuration that passes the corrected validation.
- The step requires a positive time step. The storage queries divide by it, and a zero time step raises in Python. The code never validates `timestep_minutes` (components/microgrid_components.py:191-196), so it accepts a negative time step; the model excludes one.
- Engine.StepUnder: the grid-limit guarantee is stated only for physical configurations (non-negative limits and ramps). The code checks none of these, and with a negative limit `min`/`max` give the same values the model computes.

## Findings

| source | as written | input that shows it | evidently intended | confidence | as-written member | corrected member |
|---|---|---|---|---|---|---|
| components/microgrid_components.py:72 | `0 < soc_min < soc_max < 1`, while the default `soc_max` is 1.00 | the default configuration: its constructor's assertion fails | an upper SOC limit of 100 % is allowed (`soc_max <= 1`) | not executed | Parameters.DefaultsRejected | Parameters.CorrectedValidityWidens |
| components/microgrid_components.py:775-778 | a discharging battery adds `abs(p_bat_actual)` to the grid exchange, and a charging one adds the raw command | any discharge command, e.g. -10 kW: the grid is asked for 20 kW more than the bus needs; a 100 kW charge command asks for 80 kW more than the 20 kW the battery takes | the balance uses the actual signed battery power: `p_grid = p_net_load + p_bat_actual` | not executed | Engine.AccountingsDiffer | Engine.CorrectedElectricalBalance |
| components/microgrid_components.py:810 | the step's exchange (positive = buy) is passed to `compute_cost`, whose convention is negative = buy | the grid-buying test's hour: 20.1 kW bought, bill -1.61 | buying is an expense: `compute_cost(-p_grid, ...)` | not executed | Scenarios.BuyingStepEarns | Scenarios.BuyingStepPaysWhenCorrected |

=== FILE: battery.dfy ===
/** Battery energy storage: the state-of-charge recursion and the headroom
    queries (components/microgrid_components.py, lines 309-394).
    Positive power charges, negative power discharges. */
module Battery {
  import opened Numeric
  import opened Parameters

  /** The battery's mutable state: its state of charge and the power last
      applied (the command clipped to the power rating). */
  datatype BatteryState = BatteryState(soc: real, power: real)

  /** A fresh battery sits at 50 % with no power flowing. */
  const Initial := BatteryState(0.5, 0.0)

  predicate InBounds(b: BatteryParams, s: BatteryState) {
    b.socMin <= s.soc <= b.socMax
  }

  /** The command limited to the power rating in both directions. */
  function ClipCommand(b: BatteryParams, power: real): (p: real)
    requires b.powerMax > 0.0
    ensures -b.powerMax <= p <= b.powerMax
    ensures -b.powerMax <= power <= b.powerMax ==> p == power
    ensures power > b.powerMax ==> p == b.powerMax
    ensures power < -b.powerMax ==> p == -b.powerMax
    ensures (p >= 0.0) == (power >= 0.0)
  {
    Clip(power, -b.powerMax, b.powerMax)
  }

  /** SOC after adding `energy` kWh, of which no more is taken than fits
      below `hi`. */
  function ChargedSoc(soc: real, energy: real, cap: real, hi: real): real
    requires cap > 0.0
  {
    soc + Min(energy, (hi - soc) * cap) / cap
  }

  /** SOC after removing `energy` kWh, of which no more is taken than lies
      above `lo`. */
  function DischargedSoc(soc: real, energy: real, cap: real, lo: real): real
    requires cap > 0.0
  {
    soc - Min(energy, (soc - lo) * cap) / cap
  }

  /** One call of the update: clip the command, move at most the energy that
      fits between the current SOC and the bound it heads for, then clamp. */
  function UpdateSoc(b: BatteryParams, dt: real, s: BatteryState, power: real): (s': BatteryState)
    requires BatteryValid(b) && dt > 0.0
    ensures InBounds(b, s')
    ensures s'.power == ClipCommand(b, power)
  {
    var pc := ClipCommand(b, power);
    var soc :=
      if pc >= 0.0 then ChargedSoc(s.soc, ChargeEnergy(b, dt, pc), b.energyCapacity, b.socMax)
      else DischargedSoc(s.soc, DischargeEnergy(b, dt, Abs(pc)), b.energyCapacity, b.socMin);
    BatteryState(Clip(soc, b.socMin, b.socMax), pc)
  }

  /** The unconstrained state equation of the battery class's docstring:
      SOC' = SOC + (eta_c * P_charge - P_discharge / eta_d) * dt / E_cap. */
  function IdealSoc(b: BatteryParams, dt: real, soc: real, p: real): real
    requires b.energyCapacity > 0.0 && b.etaDischarge > 0.0
  {
    soc + (b.etaCharge * Max(p, 0.0) - Max(-p, 0.0) / b.etaDischarge) * dt / b.energyCapacity
  }

  /** Energy stored by charging at `pc` kW for one step (kWh). */
  function ChargeEnergy(b: BatteryParams, dt: real, pc: real): (e: real)
    requires BatteryValid(b) && dt > 0.0
    ensures pc >= 0.0 ==> e >= 0.0
    ensures pc > 0.0 ==> e > 0.0
  {
    if pc > 0.0 then
      MulPosStrictMonotone(pc, 0.0, b.etaCharge);
      MulPosStrictMonotone(pc * b.etaCharge, 0.0, dt);
      pc * b.etaCharge * dt
    else
      pc * b.etaCharge * dt
  }

  /** Energy drawn from storage by delivering `pd` kW for one step (kWh). */
  function DischargeEnergy(b: BatteryParams, dt: real, pd: real): (e: real)
    requires BatteryValid(b) && dt > 0.0
    ensures pd >= 0.0 ==> e >= 0.0
    ensures pd > 0.0 ==> e > 0.0
  {
    if pd > 0.0 then
      MulPosStrictMonotone(pd, 0.0, dt);
      pd * dt / b.etaDischarge
    else
      pd * dt / b.etaDischarge
  }

  /** SOC gained per full step of a charge command (zero for a discharge). */
  function ChargeRate(b: BatteryParams, dt: real, power: real): (r: real)
    requires BatteryValid(b) && dt > 0.0
    ensures r >= 0.0
    ensures power > 0.0 ==> r > 0.0
  {
    ChargeEnergy(b, dt, Max(ClipCommand(b, power), 0.0)) / b.energyCapacity
  }

  /** SOC lost per full step of a discharge command (zero for a charge). */
  function DischargeRate(b: BatteryParams, dt: real, power: real): (r: real)
    requires BatteryValid(b) && dt > 0.0
    ensures r >= 0.0
    ensures power < 0.0 ==> r > 0.0
  {
    DischargeEnergy(b, dt, Max(-ClipCommand(b, power), 0.0)) / b.energyCapacity
  }

  // ---------------------------------------------------------------------
  // The update against the state equation
  // ---------------------------------------------------------------------

  /** Charging from inside the bounds: the SOC rises by the full charge
      rate or stops exactly at the upper bound, whichever comes first. */
  lemma ChargeStep(b: BatteryParams, dt: real, s: BatteryState, power: real)
    requires BatteryValid(b) && dt > 0.0 && InBounds(b, s) && power >= 0.0
    ensures UpdateSoc(b, dt, s, power).soc == Min(s.soc + ChargeRate(b, dt, power), b.socMax)
  {
    var pc := ClipCommand(b, power);
    var e := ChargeEnergy(b, dt, pc);
    assert UpdateSoc(b, dt, s, power).soc == Clip(ChargedSoc(s.soc, e, b.energyCapacity, b.socMax), b.socMin, b.socMax);
    assert Max(pc, 0.0) == pc;
    assert ChargeRate(b, dt, power) == e / b.energyCapacity;
    SaturateUp(s.soc, e / b.energyCapacity, e, b.energyCapacity, b.socMin, b.socMax);
  }

  /** Discharging from inside the bounds: the SOC falls by the full
      discharge rate or stops exactly at the lower bound. */
  lemma DischargeStep(b: BatteryParams, dt: real, s: BatteryState, power: real)
    requires BatteryValid(b) && dt > 0.0 && InBounds(b, s) && power < 0.0
    ensures UpdateSoc(b, dt, s, power).soc == Max(s.soc - DischargeRate(b, dt, power), b.socMin)
  {
    var pc := ClipCommand(b, power);
    var e := DischargeEnergy(b, dt, Abs(pc));
    assert Max(-pc, 0.0) == Abs(pc);
    assert UpdateSoc(b, dt, s, power).soc == Clip(DischargedSoc(s.soc, e, b.energyCapacity, b.socMin), b.socMin, b.socMax);
    assert DischargeRate(b, dt, power) == e / b.energyCapacity;
    SaturateDown(s.soc, e / b.energyCapacity, e, b.energyCapacity, b.socMin, b.socMax);
  }

  lemma SaturateUp(soc: real, d: real, e: real, cap: real, lo: real, hi: real)
    requires cap > 0.0 && d == e / cap && d >= 0.0 && lo <= soc <= hi
    ensures Clip(ChargedSoc(soc, e, cap, hi), lo, hi) == Min(soc + d, hi)
  {
    DivMin(e, (hi - soc) * cap, cap);
    assert (hi - soc) * cap / cap == hi - soc;
  }

  lemma SaturateDown(soc: real, d: real, e: real, cap: real, lo: real, hi: real)
    requires cap > 0.0 && d == e / cap && d >= 0.0 && lo <= soc <= hi
    ensures Clip(DischargedSoc(soc, e, cap, lo), lo, hi) == Max(soc - d, lo)
  {
    DivMin(e, (soc - lo) * cap, cap);
    assert (soc - lo) * cap / cap == soc - lo;
  }

  /** The docstring's state equation, fed the clipped command, moves the SOC
      by exactly the charge rate minus the discharge rate. */
  lemma IdealSocMovesByRates(b: BatteryParams, dt: real, soc: real, power: real)
    requires BatteryValid(b) && dt > 0.0
    ensures IdealSoc(b, dt, soc, ClipCommand(b, power)) == soc + ChargeRate(b, dt, power) - DischargeRate(b, dt, power)
  {
    IdealSocByEnergies(b, dt, soc, ClipCommand(b, power));
  }

  /** The state equation moves the SOC by the stored energy less the drawn
      energy, both over the capacity. */
  lemma IdealSocByEnergies(b: BatteryParams, dt: real, soc: real, pc: real)
    requires BatteryValid(b) && dt > 0.0
    ensures IdealSoc(b, dt, soc, pc) ==
            soc + ChargeEnergy(b, dt, Max(pc, 0.0)) / b.energyCapacity - DischargeEnergy(b, dt, Max(-pc, 0.0)) / b.energyCapacity
  {
    var x := Max(pc, 0.0);
    var y := Max(-pc, 0.0);
    var e := ChargeEnergy(b, dt, x);
    var d := DischargeEnergy(b, dt, y);
    assert e == x * b.etaCharge * dt;
    assert d == y * dt / b.etaDischarge;
    IdealArith(b.etaCharge, b.etaDischarge, dt, b.energyCapacity, x, y, e, d);
  }

  lemma IdealArith(ec: real, ed: real, dt: real, cap: real, x: real, y: real, e: real, d: real)
    requires ed > 0.0 && cap > 0.0
    requires e == x * ec * dt && d == y * dt / ed
    ensures (ec * x - y / ed) * dt / cap == e / cap - d / cap
  {
    assert (ec * x - y / ed) * dt == ec * x * dt - (y / ed) * dt;
    assert ec * x * dt == e;
    assert (y / ed) * dt == d;
    assert (e - d) / cap == e / cap - d / cap;
  }

  /** From a state inside the bounds, the capped-and-clamped update is the
      docstring's state equation saturated at the SOC bounds: the energy cap
      never lets the SOC overshoot, so the final clamp only re-states it. */
  lemma UpdateIsSaturatedStateEquation(b: BatteryParams, dt: real, s: BatteryState, power: real)
    requires BatteryValid(b) && dt > 0.0 && InBounds(b, s)
    ensures UpdateSoc(b, dt, s, power).soc == Clip(IdealSoc(b, dt, s.soc, ClipCommand(b, power)), b.socMin, b.socMax)
  {
    IdealSocMovesByRates(b, dt, s.soc, power);
    if power >= 0.0 {
      ChargeStep(b, dt, s, power);
      assert DischargeRate(b, dt, power) == 0.0;
    } else {
      DischargeStep(b, dt, s, power);
      assert ChargeRate(b, dt, power) == 0.0;
    }
  }

  /** Charging never lowers the SOC and discharging never raises it. */
  lemma UpdateMovesTowardCommand(b: BatteryParams, dt: real, s: BatteryState, power: real)
    requires BatteryValid(b) && dt > 0.0 && InBounds(b, s)
    ensures power >= 0.0 ==> UpdateSoc(b, dt, s, power).soc >= s.soc
    ensures power <= 0.0 ==> UpdateSoc(b, dt, s, power).soc <= s.soc
    ensures power == 0.0 ==> UpdateSoc(b, dt, s, power).soc == s.soc
  {
    if power >= 0.0 {
      ChargeStep(b, dt, s, power);
    } else {
      DischargeStep(b, dt, s, power);
    }
  }

  /** A charge larger than the headroom lands exactly on the upper bound,
      and a discharge larger than the remaining energy lands exactly on the
      lower bound: no overshoot, no shortfall. */
  lemma LargeRequestLandsOnBound(b: BatteryParams, dt: real, s: BatteryState, power: real)
    requires BatteryValid(b) && dt > 0.0 && InBounds(b, s)
    ensures power >= 0.0 && s.soc + ChargeRate(b, dt, power) >= b.socMax ==> UpdateSoc(b, dt, s, power).soc == b.socMax
    ensures power < 0.0 && s.soc - DischargeRate(b, dt, power) <= b.socMin ==> UpdateSoc(b, dt, s, power).soc == b.socMin
    ensures power >= 0.0 && s.soc + ChargeRate(b, dt, power) < b.socMax ==> UpdateSoc(b, dt, s, power).soc == s.soc + ChargeRate(b, dt, power)
    ensures power < 0.0 && s.soc - DischargeRate(b, dt, power) > b.socMin ==> UpdateSoc(b, dt, s, power).soc == s.soc - DischargeRate(b, dt, power)
  {
    if power >= 0.0 {
      ChargeStep(b, dt, s, power);
    } else {
      DischargeStep(b, dt, s, power);
    }
  }

  // ---------------------------------------------------------------------
  // Repeated commands
  // ---------------------------------------------------------------------

  /** The state after applying the same command `n` times. */
  function Repeat(b: BatteryParams, dt: real, s: BatteryState, power: real, n: nat): (s': BatteryState)
    requires BatteryValid(b) && dt > 0.0
    ensures n > 0 ==> InBounds(b, s') && s'.power == ClipCommand(b, power)
    ensures n == 0 ==> s' == s
    decreases n
  {
    if n == 0 then s else Repeat(b, dt, UpdateSoc(b, dt, s, power), power, n - 1)
  }

  /** `n` saturating increments of `r` from `a`, capped at `hi`. */
  function RiseTo(a: real, r: real, hi: real, n: nat): real
    decreases n
  {
    if n == 0 then a else RiseTo(Min(a + r, hi), r, hi, n - 1)
  }

  /** `n` saturating decrements of `r` from `a`, floored at `lo`. */
  function FallTo(a: real, r: real, lo: real, n: nat): real
    decreases n
  {
    if n == 0 then a else FallTo(Max(a - r, lo), r, lo, n - 1)
  }

  /** `a` moved by `n` steps of `r`. */
  function Advance(a: real, r: real, n: nat): real {
    a + n as real * r
  }

  /** Saturating increments add up linearly until they hit the cap. */
  lemma {:induction false} RiseToClosedForm(a: real, r: real, hi: real, n: nat)
    requires r >= 0.0 && a <= hi
    ensures RiseTo(a, r, hi, n) == Min(Advance(a, r, n), hi)
    decreases n
  {
    if n > 0 {
      var a' := Min(a + r, hi);
      RiseToClosedForm(a', r, hi, n - 1);
      AdvanceSucc(a, r, n);
      CapAbsorbsAdvance(a + r, r, hi, n - 1);
    }
  }

  lemma AdvanceSucc(a: real, r: real, n: nat)
    requires n > 0
    ensures Advance(a, r, n) == Advance(a + r, r, n - 1)
  {
    assert n as real * r == r + (n - 1) as real * r;
  }

  /** Capping before advancing upwards changes nothing once capped again. */
  lemma CapAbsorbsAdvance(x: real, r: real, hi: real, m: nat)
    requires r >= 0.0
    ensures Min(Advance(Min(x, hi), r, m), hi) == Min(Advance(x, r, m), hi)
  {
    MulNonNegMonotone(r, 0.0, m as real);
  }

  /** Flooring before advancing downwards changes nothing once floored
      again. */
  lemma FloorAbsorbsAdvance(x: real, r: real, lo: real, m: nat)
    requires r >= 0.0
    ensures Max(Advance(Max(x, lo), -r, m), lo) == Max(Advance(x, -r, m), lo)
  {
    MulNonNegMonotone(r, 0.0, m as real);
    assert m as real * -r == -(m as real * r);
  }

  /** Saturating decrements add up linearly until they hit the floor. */
  lemma {:induction false} FallToClosedForm(a: real, r: real, lo: real, n: nat)
    requires r >= 0.0 && lo <= a
    ensures FallTo(a, r, lo, n) == Max(Advance(a, -r, n), lo)
    decreases n
  {
    if n > 0 {
      var a' := Max(a - r, lo);
      FallToClosedForm(a', r, lo, n - 1);
      AdvanceSucc(a, -r, n);
      FloorAbsorbsAdvance(a - r, r, lo, n - 1);
    }
  }

  /** `n` identical charge steps from inside the bounds are `n` saturating
      increments of the charge rate. */
  lemma {:induction false} RepeatedChargeRises(b: BatteryParams, dt: real, s: BatteryState, power: real, n: nat)
    requires BatteryValid(b) && dt > 0.0 && InBounds(b, s) && power >= 0.0
    ensures Repeat(b, dt, s, power, n).soc == RiseTo(s.soc, ChargeRate(b, dt, power), b.socMax, n)
    decreases n
  {
    if n > 0 {
      var s1 := UpdateSoc(b, dt, s, power);
      assert Repeat(b, dt, s, power, n) == Repeat(b, dt, s1, power, n - 1);
      ChargeStep(b, dt, s, power);
      RepeatedChargeRises(b, dt, s1, power, n - 1);
    }
  }

  /** `n` identical discharge steps from inside the bounds are `n`
      saturating decrements of the discharge rate. */
  lemma {:induction false} RepeatedDischargeFalls(b: BatteryParams, dt: real, s: BatteryState, power: real, n: nat)
    requires BatteryValid(b) && dt > 0.0 && InBounds(b, s) && power < 0.0
    ensures Repeat(b, dt, s, power, n).soc == FallTo(s.soc, DischargeRate(b, dt, power), b.socMin, n)
    decreases n
  {
    if n > 0 {
      var s1 := UpdateSoc(b, dt, s, power);
      assert Repeat(b, dt, s, power, n) == Repeat(b, dt, s1, power, n - 1);
      DischargeStep(b, dt, s, power);
      RepeatedDischargeFalls(b, dt, s1, power, n - 1);
    }
  }

  /** `n` identical charge steps move the SOC linearly until it reaches the
      upper bound, and then hold it there exactly. */
  lemma RepeatedCharge(b: BatteryParams, dt: real, s: BatteryState, power: real, n: nat)
    requires BatteryValid(b) && dt > 0.0 && InBounds(b, s) && power >= 0.0
    ensures Repeat(b, dt, s, power, n).soc == Min(Advance(s.soc, ChargeRate(b, dt, power), n), b.socMax)
  {
    RepeatedChargeRises(b, dt, s, power, n);
    RiseToClosedForm(s.soc, ChargeRate(b, dt, power), b.socMax, n);
  }

  /** `n` identical discharge steps move the SOC linearly until it reaches
      the lower bound, and then hold it there exactly. */
  lemma RepeatedDischarge(b: BatteryParams, dt: real, s: BatteryState, power: real, n: nat)
    requires BatteryValid(b) && dt > 0.0 && InBounds(b, s) && power < 0.0
    ensures Repeat(b, dt, s, power, n).soc == Max(Advance(s.soc, -DischargeRate(b, dt, power), n), b.socMin)
  {
    RepeatedDischargeFalls(b, dt, s, power, n);
    FallToClosedForm(s.soc, DischargeRate(b, dt, power), b.socMin, n);
  }

  // ---------------------------------------------------------------------
  // Headroom queries
  // ---------------------------------------------------------------------

  /** Largest charge power that does not push the SOC past its upper bound
      in one step, capped by the power rating. */
  function AvailableChargePower(b: BatteryParams, dt: real, s: BatteryState): (p: real)
    requires BatteryValid(b) && dt > 0.0
    ensures p <= b.powerMax
    ensures s.soc <= b.socMax ==> p >= 0.0
    ensures ChargeEnergy(b, dt, p) <= (b.socMax - s.soc) * b.energyCapacity
    ensures p < b.powerMax ==> ChargeEnergy(b, dt, p) == (b.socMax - s.soc) * b.energyCapacity
  {
    var k := b.etaCharge * dt;
    MulPosStrictMonotone(b.etaCharge, 0.0, dt);
    var h := (b.socMax - s.soc) * b.energyCapacity;
    var p := Min(h / k, b.powerMax);
    assert h / k * k == h;
    assert ChargeEnergy(b, dt, p) == p * k;
    if p == h / k then
      p
    else
      MulPosStrictMonotone(k, p, h / k);
      p
  }

  /** Largest discharge power that does not push the SOC below its lower
      bound in one step, capped by the power rating. */
  function AvailableDischargePower(b: BatteryParams, dt: real, s: BatteryState): (p: real)
    requires BatteryValid(b) && dt > 0.0
    ensures p <= b.powerMax
    ensures b.socMin <= s.soc ==> p >= 0.0
    ensures DischargeEnergy(b, dt, p) <= (s.soc - b.socMin) * b.energyCapacity
    ensures p < b.powerMax ==> DischargeEnergy(b, dt, p) == (s.soc - b.socMin) * b.energyCapacity
  {
    var h := (s.soc - b.socMin) * b.energyCapacity;
    var k := dt / b.etaDischarge;
    var p := Min(h * b.etaDischarge / dt, b.powerMax);
    assert h * b.etaDischarge / dt == h / k;
    assert h / k * k == h;
    assert DischargeEnergy(b, dt, p) == p * k;
    if p == h / k then
      p
    else
      MulPosStrictMonotone(k, p, h / k);
      p
  }

  /** Commanding exactly the available charge power is never cut short by
      the SOC cap, and when the power rating is not what limits it, the SOC
      ends exactly on its upper bound. */
  lemma AvailableChargeIsExact(b: BatteryParams, dt: real, s: BatteryState)
    requires BatteryValid(b) && dt > 0.0 && InBounds(b, s)
    ensures UpdateSoc(b, dt, s, AvailableChargePower(b, dt, s)).soc ==
            s.soc + ChargeRate(b, dt, AvailableChargePower(b, dt, s))
    ensures AvailableChargePower(b, dt, s) < b.powerMax ==>
            UpdateSoc(b, dt, s, AvailableChargePower(b, dt, s)).soc == b.socMax
  {
    ChargeThatFits(b, dt, s, AvailableChargePower(b, dt, s));
  }

  /** Commanding exactly the available discharge power is never cut short
      by the SOC floor, and when the power rating is not what limits it, the
      SOC ends exactly on its lower bound. */
  lemma AvailableDischargeIsExact(b: BatteryParams, dt: real, s: BatteryState)
    requires BatteryValid(b) && dt > 0.0 && InBounds(b, s)
    ensures UpdateSoc(b, dt, s, -AvailableDischargePower(b, dt, s)).soc ==
            s.soc - DischargeRate(b, dt, -AvailableDischargePower(b, dt, s))
    ensures AvailableDischargePower(b, dt, s) < b.powerMax ==>
            UpdateSoc(b, dt, s, -AvailableDischargePower(b, dt, s)).soc == b.socMin
  {
    DischargeWithinMargin(b, dt, s, AvailableDischargePower(b, dt, s));
  }

  /** `DischargeThatFits`, extended to the zero command. */
  lemma DischargeWithinMargin(b: BatteryParams, dt: real, s: BatteryState, p: real)
    requires BatteryValid(b) && dt > 0.0 && InBounds(b, s) && 0.0 <= p <= b.powerMax
    requires DischargeEnergy(b, dt, p) <= (s.soc - b.socMin) * b.energyCapacity
    ensures UpdateSoc(b, dt, s, -p).soc == s.soc - DischargeRate(b, dt, -p)
    ensures DischargeEnergy(b, dt, p) == (s.soc - b.socMin) * b.energyCapacity ==> UpdateSoc(b, dt, s, -p).soc == b.socMin
  {
    if p == 0.0 {
      IdleHolds(b, dt, s, p);
    } else {
      DischargeThatFits(b, dt, s, p);
    }
  }

  /** A zero command leaves the SOC where it is, which is the floor when
      zero was all the margin allowed. */
  lemma IdleHolds(b: BatteryParams, dt: real, s: BatteryState, p: real)
    requires BatteryValid(b) && dt > 0.0 && InBounds(b, s) && p == 0.0
    ensures UpdateSoc(b, dt, s, -p).soc == s.soc - DischargeRate(b, dt, -p)
    ensures DischargeEnergy(b, dt, p) == (s.soc - b.socMin) * b.energyCapacity ==>
              UpdateSoc(b, dt, s, -p).soc == b.socMin
  {
    ChargeStep(b, dt, s, 0.0);
    assert ChargeRate(b, dt, 0.0) == 0.0;
    assert DischargeEnergy(b, dt, 0.0) == 0.0;
    if DischargeEnergy(b, dt, p) == (s.soc - b.socMin) * b.energyCapacity {
      EmptyMargin(s.soc - b.socMin, b.energyCapacity);
    }
  }

  /** A SOC margin that holds no energy is no margin at all. */
  lemma EmptyMargin(m: real, cap: real)
    requires cap > 0.0 && m * cap == 0.0
    ensures m == 0.0
  {
    if m > 0.0 {
      ProductSign(m, cap);
    } else if m < 0.0 {
      MulPosStrictMonotone(cap, m, 0.0);
    }
  }

  /** A charge command within the rating whose energy fits below the upper
      bound is applied in full; if it fills the headroom exactly, the SOC
      ends on the bound. */
  lemma ChargeThatFits(b: BatteryParams, dt: real, s: BatteryState, p: real)
    requires BatteryValid(b) && dt > 0.0 && InBounds(b, s) && 0.0 <= p <= b.powerMax
    requires ChargeEnergy(b, dt, p) <= (b.socMax - s.soc) * b.energyCapacity
    ensures UpdateSoc(b, dt, s, p).soc == s.soc + ChargeRate(b, dt, p)
    ensures ChargeEnergy(b, dt, p) == (b.socMax - s.soc) * b.energyCapacity ==> UpdateSoc(b, dt, s, p).soc == b.socMax
  {
    ChargeByEnergy(b, dt, s, p);
    CapNotReached(s.soc, ChargeRate(b, dt, p), ChargeEnergy(b, dt, p), b.energyCapacity, b.socMax,
                  UpdateSoc(b, dt, s, p).soc);
  }

  /** A charge within the rating raises the SOC by its energy over the
      capacity, saturated at the upper bound. */
  lemma ChargeByEnergy(b: BatteryParams, dt: real, s: BatteryState, p: real)
    requires BatteryValid(b) && dt > 0.0 && InBounds(b, s) && 0.0 <= p <= b.powerMax
    ensures UpdateSoc(b, dt, s, p).soc == Min(s.soc + ChargeRate(b, dt, p), b.socMax)
    ensures ChargeRate(b, dt, p) == ChargeEnergy(b, dt, p) / b.energyCapacity
  {
    ChargeStep(b, dt, s, p);
    RateOfEnergy(b, dt, p);
  }

  /** The saturated rise `Min(soc + c, hi)` of an energy that fits below
      `hi` is the full rise, and ends on `hi` when the energy fills the
      headroom. */
  lemma CapNotReached(soc: real, c: real, e: real, cap: real, hi: real, r: real)
    requires cap > 0.0 && c == e / cap && e <= (hi - soc) * cap && r == Min(soc + c, hi)
    ensures r == soc + c
    ensures e == (hi - soc) * cap ==> r == hi
  {
    EnergyFits(e, hi - soc, cap);
  }

  /** A discharge command within the rating whose energy fits above the
      lower bound is applied in full; if it uses up the margin exactly, the
      SOC ends on the bound. */
  lemma DischargeThatFits(b: BatteryParams, dt: real, s: BatteryState, p: real)
    requires BatteryValid(b) && dt > 0.0 && InBounds(b, s) && 0.0 < p <= b.powerMax
    requires DischargeEnergy(b, dt, p) <= (s.soc - b.socMin) * b.energyCapacity
    ensures UpdateSoc(b, dt, s, -p).soc == s.soc - DischargeRate(b, dt, -p)
    ensures DischargeEnergy(b, dt, p) == (s.soc - b.socMin) * b.energyCapacity ==> UpdateSoc(b, dt, s, -p).soc == b.socMin
  {
    DischargeByEnergy(b, dt, s, p);
    FloorNotReached(s.soc, DischargeRate(b, dt, -p), DischargeEnergy(b, dt, p), b.energyCapacity, b.socMin,
                    UpdateSoc(b, dt, s, -p).soc);
  }

  /** A discharge within the rating lowers the SOC by its energy over the
      capacity, saturated at the lower bound. */
  lemma DischargeByEnergy(b: BatteryParams, dt: real, s: BatteryState, p: real)
    requires BatteryValid(b) && dt > 0.0 && InBounds(b, s) && 0.0 < p <= b.powerMax
    ensures UpdateSoc(b, dt, s, -p).soc == Max(s.soc - DischargeRate(b, dt, -p), b.socMin)
    ensures DischargeRate(b, dt, -p) == DischargeEnergy(b, dt, p) / b.energyCapacity
  {
    DischargeStep(b, dt, s, -p);
    RateOfEnergy(b, dt, p);
  }

  /** The saturated fall `Max(soc - d, lo)` of an energy that fits above
      `lo` is the full fall, and ends on `lo` when the energy fills the
      margin. */
  lemma FloorNotReached(soc: real, d: real, e: real, cap: real, lo: real, r: real)
    requires cap > 0.0 && d == e / cap && e <= (soc - lo) * cap && r == Max(soc - d, lo)
    ensures r == soc - d
    ensures e == (soc - lo) * cap ==> r == lo
  {
    EnergyFits(e, soc - lo, cap);
  }

  /** For a command within the rating, the per-step rates are the step's
      energy divided by the capacity. */
  lemma RateOfEnergy(b: BatteryParams, dt: real, p: real)
    requires BatteryValid(b) && dt > 0.0 && 0.0 <= p <= b.powerMax
    ensures ChargeRate(b, dt, p) == ChargeEnergy(b, dt, p) / b.energyCapacity
    ensures DischargeRate(b, dt, -p) == DischargeEnergy(b, dt, p) / b.energyCapacity
  {
    assert ClipCommand(b, p) == p;
    assert ClipCommand(b, -p) == -p;
  }

  /** An energy that fits in a SOC margin of `m` moves the SOC by at most
      `m`, and by exactly `m` when it fills the margin. */
  lemma EnergyFits(e: real, m: real, cap: real)
    requires cap > 0.0 && e <= m * cap
    ensures e / cap <= m
    ensures e == m * cap ==> e / cap == m
  {
    DivMonotone(e, m * cap, cap);
    assert m * cap / cap == m;
  }
}

=== FILE: boiler.dfy ===
/** The auxiliary gas boiler: a clipped heat set-point and the fuel bill
    it implies (components/microgrid_components.py, lines 617-654). */
module Boiler {
  import opened Numeric
  import opened Parameters

  datatype BoilerState = BoilerState(qThermal: real)

  const Initial := BoilerState(0.0)

  /** Heat output after clipping the command to `[0, powerMax]`. */
  function SetPower(b: BoilerParams, cmd: real): (s': BoilerState)
    requires BoilerValid(b)
    ensures 0.0 <= s'.qThermal <= b.powerMax
    ensures 0.0 <= cmd <= b.powerMax ==> s'.qThermal == cmd
    ensures cmd < 0.0 ==> s'.qThermal == 0.0
    ensures cmd > b.powerMax ==> s'.qThermal == b.powerMax
  {
    BoilerState(Clip(cmd, 0.0, b.powerMax))
  }

  /** Hourly fuel cost: the fuel burnt (heat over efficiency) at the fuel
      price. */
  function FuelCost(b: BoilerParams, s: BoilerState): (cost: real)
    requires BoilerValid(b)
    ensures cost * b.eta == s.qThermal * b.fuelCost
    ensures s.qThermal >= 0.0 && b.fuelCost >= 0.0 ==> cost >= 0.0
  {
    var fuel := s.qThermal / b.eta;
    ProductSign(fuel, b.fuelCost);
    assert s.qThermal >= 0.0 ==> fuel >= 0.0;
    fuel * b.fuelCost
  }

  /** Re-issuing the output the boiler already delivers changes nothing, so
      the set-point is a projection. */
  lemma SetPowerIdempotent(b: BoilerParams, cmd: real)
    requires BoilerValid(b)
    ensures SetPower(b, SetPower(b, cmd).qThermal) == SetPower(b, cmd)
  {
  }

  /** A larger command never yields less heat, nor a smaller fuel bill when
      fuel has a non-negative price. */
  lemma {:induction false} CostMonotoneInCommand(b: BoilerParams, cmd1: real, cmd2: real)
    requires BoilerValid(b) && b.fuelCost >= 0.0 && cmd1 <= cmd2
    ensures SetPower(b, cmd1).qThermal <= SetPower(b, cmd2).qThermal
    ensures FuelCost(b, SetPower(b, cmd1)) <= FuelCost(b, SetPower(b, cmd2))
  {
    ClipMonotone(cmd1, cmd2, 0.0, b.powerMax);
    var q1 := SetPower(b, cmd1).qThermal;
    var q2 := SetPower(b, cmd2).qThermal;
    DivMonotone(q1, q2, b.eta);
    MulNonNegMonotone(b.fuelCost, q1 / b.eta, q2 / b.eta);
    assert FuelCost(b, SetPower(b, cmd1)) == q1 / b.eta * b.fuelCost;
    assert FuelCost(b, SetPower(b, cmd2)) == q2 / b.eta * b.fuelCost;
  }
}

=== FILE: chp.dfy ===
/** The combined heat-and-power unit: ramp-limited electrical dispatch with
    a minimum-load rule, and heat output tied to electrical output
    (components/microgrid_components.py, lines 448-526). */
module Chp {
  import opened Numeric
  import opened Parameters

  /** Electrical output and the heat that comes with it, both in kW. */
  datatype ChpState = ChpState(pElec: real, qThermal: real)

  /** A fresh unit is off. */
  const Initial := ChpState(0.0, 0.0)

  /** Heat output is always the thermal efficiency times electrical output. */
  predicate Coupled(c: ChpParams, s: ChpState) {
    s.qThermal == c.etaThermal * s.pElec
  }

  /** The ramp allowances per step. The rates are commented as kW per
      minute but are multiplied by the step length in hours. */
  function RampUp(c: ChpParams, dt: real): real { c.rampRateUp * dt }
  function RampDown(c: ChpParams, dt: real): real { c.rampRateDown * dt }

  predicate RampsNonNegative(c: ChpParams, dt: real) {
    RampUp(c, dt) >= 0.0 && RampDown(c, dt) >= 0.0
  }

  /** The command after the ramp clip, which applies only while the unit is
      running, and the power-bound clip. */
  function Limit(c: ChpParams, dt: real, prev: real, cmd: real): (v: real)
    requires ChpValid(c)
    ensures 0.0 <= v <= c.powerElecMax
    ensures prev <= 0.0 ==> v == Clip(cmd, 0.0, c.powerElecMax)
    ensures 0.0 < prev <= c.powerElecMax && RampsNonNegative(c, dt) ==>
              prev - RampDown(c, dt) <= v <= prev + RampUp(c, dt)
    ensures (0.0 < prev && RampsNonNegative(c, dt) && prev - RampDown(c, dt) <= cmd <= prev + RampUp(c, dt) &&
             0.0 <= cmd <= c.powerElecMax) ==> v == cmd
  {
    var ramped := if prev > 0.0 then Clip(cmd, prev - RampDown(c, dt), prev + RampUp(c, dt)) else cmd;
    Clip(ramped, 0.0, c.powerElecMax)
  }

  /** The minimum-load rule: a set-point strictly between zero and the
      minimum load goes to whichever of the two is nearer, a tie going to
      the minimum load; any other set-point is kept. */
  function Snap(minLoad: real, v: real): (r: real)
    ensures !(0.0 < v < minLoad) ==> r == v
    ensures 0.0 < v < minLoad ==> (r == 0.0 || r == minLoad)
    ensures 0.0 < v < minLoad ==> (r == 0.0 <==> v < minLoad - v)
    ensures v >= 0.0 ==> r == 0.0 || r >= minLoad
  {
    if 0.0 < v < minLoad then
      if v < minLoad / 2.0 then 0.0 else minLoad
    else v
  }

  /** One dispatch: limit, snap, and recompute the heat output. */
  function SetPower(c: ChpParams, dt: real, s: ChpState, cmd: real): (s': ChpState)
    requires ChpValid(c)
    ensures Coupled(c, s')
    ensures s'.pElec >= 0.0
    ensures s'.pElec == 0.0 || c.minLoad <= s'.pElec
    ensures c.minLoad <= c.powerElecMax ==> s'.pElec <= c.powerElecMax
  {
    var p := Snap(c.minLoad, Limit(c, dt, s.pElec, cmd));
    ChpState(p, c.etaThermal * p)
  }

  /** Hourly fuel cost at the current operating point. */
  function FuelCost(c: ChpParams, s: ChpState): (cost: real)
    ensures s.pElec == 0.0 ==> cost == 0.0
    ensures s.pElec >= 0.0 && c.fuelCost >= 0.0 ==> cost >= 0.0
    ensures ChpValid(c) && Coupled(c, s) ==> cost * c.etaThermal == s.qThermal * c.fuelCost
  {
    ProductSign(s.pElec, c.fuelCost);
    s.pElec * c.fuelCost
  }

  // ---------------------------------------------------------------------
  // Ramp behaviour
  // ---------------------------------------------------------------------

  /** While running, the change of output stays within the ramp allowance
      unless the minimum-load rule fired; and an output other than zero or
      the minimum load can only come from a set-point the rule left alone. */
  lemma RampRespectedUnlessSnapped(c: ChpParams, dt: real, s: ChpState, cmd: real)
    requires ChpValid(c) && RampsNonNegative(c, dt) && 0.0 < s.pElec <= c.powerElecMax
    ensures !(0.0 < Limit(c, dt, s.pElec, cmd) < c.minLoad) ==>
              s.pElec - RampDown(c, dt) <= SetPower(c, dt, s, cmd).pElec <= s.pElec + RampUp(c, dt)
    ensures SetPower(c, dt, s, cmd).pElec != 0.0 && SetPower(c, dt, s, cmd).pElec != c.minLoad ==>
              s.pElec - RampDown(c, dt) <= SetPower(c, dt, s, cmd).pElec <= s.pElec + RampUp(c, dt)
  {
  }

  /** From off there is no ramp limit: any command between the minimum load
      and the rating is reached in one step. */
  lemma FromOffIgnoresRamp(c: ChpParams, dt: real, s: ChpState, cmd: real)
    requires ChpValid(c) && s.pElec <= 0.0 && c.minLoad <= cmd <= c.powerElecMax
    ensures SetPower(c, dt, s, cmd).pElec == cmd
  {
  }

  /** The minimum-load rule may jump further than the ramp allows: a unit
      at 6 kW with a 6 kW minimum load and a 4 kW ramp, told to stop, drops
      straight to zero. */
  lemma SnapCanExceedRamp()
    ensures var c := ChpParams(15.0, 0.40, 0.50, 4.0, 4.0, 6.0, 0.05);
            var s' := SetPower(c, 1.0, ChpState(6.0, 3.0), 0.0);
            s'.pElec == 0.0 && 6.0 - s'.pElec > RampDown(c, 1.0)
  {
  }

  /** A running unit whose downward ramp is at most half the minimum load
      cannot switch off in one step: every set-point the ramp allows lies at
      or above half the minimum load, and the snap lifts it back up to the
      minimum load or keeps it above. */
  lemma {:induction false} StuckAtMinLoad(c: ChpParams, dt: real, s: ChpState, cmd: real)
    requires ChpValid(c) && RampsNonNegative(c, dt) && c.minLoad <= c.powerElecMax
    requires c.minLoad <= s.pElec <= c.powerElecMax && RampDown(c, dt) <= c.minLoad / 2.0
    ensures c.minLoad <= SetPower(c, dt, s, cmd).pElec <= c.powerElecMax
  {
    var v := Limit(c, dt, s.pElec, cmd);
    assert v >= c.minLoad / 2.0;
  }

  /** The state after applying a sequence of commands, one step each. */
  function Drive(c: ChpParams, dt: real, s: ChpState, cmds: seq<real>): ChpState
    requires ChpValid(c)
    decreases |cmds|
  {
    if |cmds| == 0 then s else Drive(c, dt, SetPower(c, dt, s, cmds[0]), cmds[1..])
  }

  /** Under the same ramp condition a running unit never switches off,
      whatever sequence of commands it is given. */
  lemma {:induction false} NeverSwitchesOff(c: ChpParams, dt: real, s: ChpState, cmds: seq<real>)
    requires ChpValid(c) && RampsNonNegative(c, dt) && c.minLoad <= c.powerElecMax
    requires c.minLoad <= s.pElec <= c.powerElecMax && RampDown(c, dt) <= c.minLoad / 2.0
    ensures c.minLoad <= Drive(c, dt, s, cmds).pElec <= c.powerElecMax
    decreases |cmds|
  {
    if |cmds| > 0 {
      StuckAtMinLoad(c, dt, s, cmds[0]);
      NeverSwitchesOff(c, dt, SetPower(c, dt, s, cmds[0]), cmds[1..]);
    }
  }
}

=== FILE: engine.dfy ===
/** The integrated microgrid: one call of the system step dispatches every
    component, settles the grid exchange, balances the thermal bus through
    the store, prices the step and flags constraint violations
    (components/microgrid_components.py, lines 661-862).

    The step follows the source's accounting exactly (`AsWritten`). The
    `Corrected` accounting settles the electrical balance with the battery's
    actual signed power and prices the exchange under the step's own sign
    convention (positive power is bought); the Findings in the README
    compare the two. */
module Engine {
  import opened Numeric
  import opened Optional
  import opened Parameters
  import Renewables
  import Battery
  import Chp
  import ThermalStorage
  import Boiler
  import Grid

  /** The state the step mutates: one record per dispatchable component. */
  datatype Microgrid = Microgrid(
    battery: Battery.BatteryState,
    chp: Chp.ChpState,
    tes: ThermalStorage.TesState,
    boiler: Boiler.BoilerState)

  /** The step's arguments: loads, weather, set-points and optional price
      overrides. */
  datatype StepInput = StepInput(
    loadElec: real,
    loadThermal: real,
    irradiance: real,
    windSpeed: real,
    ambientTemp: real,
    batteryCmd: real,
    chpCmd: real,
    boilerCmd: real,
    priceBuy: Option<real>,
    priceSell: Option<real>)

  /** The six constraint flags the step reports. */
  datatype Violations = Violations(
    socHigh: bool,
    socLow: bool,
    tempHigh: bool,
    tempLow: bool,
    loadUnmetElec: bool,
    loadUnmetThermal: bool)

  /** The report the step returns, field for field. */
  datatype StepResult = StepResult(
    soc: real,
    pPv: real,
    pWt: real,
    loadElec: real,
    pBattery: real,
    pChp: real,
    pGrid: real,
    tempTes: real,
    loadThermal: real,
    qChp: real,
    qBoiler: real,
    qTesIn: real,
    qTesOut: real,
    irradiance: real,
    windSpeed: real,
    ambientTemp: real,
    costGrid: real,
    costFuelChp: real,
    costFuelBoiler: real,
    costTotal: real,
    violations: Violations,
    violationCount: nat)

  datatype Transition = Transition(next: Microgrid, out: StepResult)

  /** Which electrical accounting the step applies. */
  datatype Accounting = AsWritten | Corrected

  /** What every component guarantees about its own state after any step. */
  predicate Invariant(c: Config, m: Microgrid) {
    && Battery.InBounds(c.battery, m.battery)
    && Chp.Coupled(c.chp, m.chp)
    && m.chp.pElec >= 0.0
    && (m.chp.pElec == 0.0 || c.chp.minLoad <= m.chp.pElec)
    && ThermalStorage.InBounds(c.tes, m.tes)
    && 0.0 <= m.boiler.qThermal <= c.boiler.powerMax
  }

  /** The freshly built system: battery at 50 %, CHP and boiler off, store
      in the middle of its band. */
  function Init(c: Config): (m: Microgrid)
    requires WellFormed(c)
    ensures c.battery.socMin <= 0.5 <= c.battery.socMax <==> Invariant(c, m)
  {
    Microgrid(Battery.Initial, Chp.Initial, ThermalStorage.Initial(c.tes), Boiler.Initial)
  }

  // ---------------------------------------------------------------------
  // Electrical bus
  // ---------------------------------------------------------------------

  /** The grid exchange the balance asks for, before the grid's limits
      (positive is bought). As written, a charging battery adds its raw
      command and a discharging battery adds the magnitude of its actual
      power; corrected, the battery's actual signed power is added. */
  function GridRequest(acct: Accounting, netLoad: real, batteryCmd: real, batteryPower: real): (p: real)
    ensures acct == Corrected ==> p - netLoad == batteryPower
    ensures acct == AsWritten && batteryCmd >= 0.0 ==> p - netLoad == batteryCmd
    ensures acct == AsWritten && batteryCmd < 0.0 ==> p - netLoad == Abs(batteryPower)
  {
    match acct
    case AsWritten =>
      if batteryCmd >= 0.0 then netLoad + batteryCmd else netLoad + Abs(batteryPower)
    case Corrected => netLoad + batteryPower
  }

  /** The grid's import and export limits; a request inside them passes
      unchanged. */
  function LimitGrid(g: GridParams, p: real): (r: real)
    ensures p > 0.0 ==> r <= g.powerImportMax && r <= p
    ensures p <= 0.0 ==> r >= -g.powerExportMax && r >= p
    ensures -g.powerExportMax <= p <= g.powerImportMax ==> r == p
    ensures -g.powerExportMax < r < g.powerImportMax ==> r == p
    ensures g.powerImportMax >= 0.0 && g.powerExportMax >= 0.0 ==>
              -g.powerExportMax <= r <= g.powerImportMax
  {
    if p > 0.0 then Min(p, g.powerImportMax) else Max(p, -g.powerExportMax)
  }

  /** The electrical bus after one step. */
  datatype Electrical = Electrical(
    battery: Battery.BatteryState,
    chp: Chp.ChpState,
    pPv: real,
    pWt: real,
    load: real,
    request: real,
    pGrid: real)

  /** Renewable and CHP supply on the bus. */
  function Supply(e: Electrical): real { e.pPv + e.pWt + e.chp.pElec }

  function ElectricalBus(c: Config, acct: Accounting, m: Microgrid, u: StepInput): (e: Electrical)
    requires WellFormed(c)
    ensures Battery.InBounds(c.battery, e.battery)
    ensures e.battery.power == Battery.ClipCommand(c.battery, u.batteryCmd)
    ensures Chp.Coupled(c.chp, e.chp) && e.chp.pElec >= 0.0
    ensures e.chp.pElec == 0.0 || c.chp.minLoad <= e.chp.pElec
    ensures e.load >= 0.0 && (u.loadElec >= 0.0 ==> e.load == u.loadElec)
    ensures e.request == GridRequest(acct, e.load - Supply(e), u.batteryCmd, e.battery.power)
    ensures e.pGrid == LimitGrid(c.grid, e.request)
  {
    var dt := DtHours(c);
    var pPv := Renewables.PvOutput(c.res, u.irradiance, u.ambientTemp);
    var pWt := Renewables.WindOutput(c.res, u.windSpeed);
    var load := Max(0.0, u.loadElec);
    var chp := Chp.SetPower(c.chp, dt, m.chp, u.chpCmd);
    var battery := Battery.UpdateSoc(c.battery, dt, m.battery, u.batteryCmd);
    var request := GridRequest(acct, load - (pPv + pWt + chp.pElec), u.batteryCmd, battery.power);
    Electrical(battery, chp, pPv, pWt, load, request, LimitGrid(c.grid, request))
  }

  // ---------------------------------------------------------------------
  // Thermal bus
  // ---------------------------------------------------------------------

  /** Heat into and out of the store. */
  datatype Flows = Flows(qIn: real, qOut: real)

  /** The store covers a deficit (as far as it can discharge) or absorbs a
      surplus (as far as it can charge); never both. */
  function StoreFlows(t: TesParams, dt: real, s: ThermalStorage.TesState, deficit: real): (f: Flows)
    requires TesValid(t) && dt > 0.0
    ensures f.qIn == 0.0 || f.qOut == 0.0
    ensures deficit > 0.0 ==> f.qIn == 0.0 && f.qOut <= deficit
    ensures deficit > 0.0 ==>
              (f.qOut == deficit <==> deficit <= ThermalStorage.AvailableDischarge(t, dt, s))
    ensures deficit <= 0.0 ==> f.qOut == 0.0 && f.qIn <= -deficit
    ensures deficit <= 0.0 ==>
              (f.qIn == -deficit <==> -deficit <= ThermalStorage.AvailableCharge(t, dt, s))
    ensures ThermalStorage.InBounds(t, s) && t.powerChargeMax >= 0.0 && t.powerDischargeMax >= 0.0 ==>
              f.qIn >= 0.0 && f.qOut >= 0.0
  {
    if deficit > 0.0 then
      Flows(0.0, Min(deficit, ThermalStorage.AvailableDischarge(t, dt, s)))
    else
      Flows(Min(Abs(deficit), ThermalStorage.AvailableCharge(t, dt, s)), 0.0)
  }

  /** The thermal bus after one step, given the CHP's heat output. */
  datatype Thermal = Thermal(tes: ThermalStorage.TesState, boiler: Boiler.BoilerState, load: real, flows: Flows)

  function ThermalBus(c: Config, m: Microgrid, u: StepInput, qChp: real): (th: Thermal)
    requires WellFormed(c)
    ensures ThermalStorage.InBounds(c.tes, th.tes)
    ensures 0.0 <= th.boiler.qThermal <= c.boiler.powerMax
    ensures th.boiler == Boiler.SetPower(c.boiler, u.boilerCmd)
    ensures th.load >= 0.0 && (u.loadThermal >= 0.0 ==> th.load == u.loadThermal)
    ensures th.flows == StoreFlows(c.tes, DtHours(c), m.tes, th.load - (qChp + th.boiler.qThermal))
    ensures th.tes == ThermalStorage.UpdateTemperature(c.tes, DtHours(c), m.tes, th.flows.qIn, th.flows.qOut)
  {
    var dt := DtHours(c);
    var boiler := Boiler.SetPower(c.boiler, u.boilerCmd);
    var load := Max(0.0, u.loadThermal);
    var flows := StoreFlows(c.tes, dt, m.tes, load - (qChp + boiler.qThermal));
    var tes := ThermalStorage.UpdateTemperature(c.tes, dt, m.tes, flows.qIn, flows.qOut);
    Thermal(tes, boiler, load, flows)
  }

  // ---------------------------------------------------------------------
  // Costs and violations
  // ---------------------------------------------------------------------

  /** The grid bill. As written the step's exchange (positive bought) is
      handed to a cost function whose convention is the opposite (negative
      bought); corrected, the sign is flipped first. */
  function GridCost(c: Config, acct: Accounting, pGrid: real, u: StepInput): (cost: real)
    ensures acct == Corrected && pGrid > 0.0 && Grid.BuyPrice(c.grid, u.priceBuy) > 0.0 ==> cost > 0.0
    ensures acct == Corrected && pGrid < 0.0 && Grid.SellPrice(c.grid, u.priceSell) > 0.0 ==> cost < 0.0
    ensures acct == AsWritten && pGrid > 0.0 && Grid.SellPrice(c.grid, u.priceSell) > 0.0 ==> cost < 0.0
    ensures acct == AsWritten && pGrid < 0.0 && Grid.BuyPrice(c.grid, u.priceBuy) > 0.0 ==> cost > 0.0
  {
    match acct
    case AsWritten => Grid.Cost(c.grid, pGrid, u.priceBuy, u.priceSell)
    case Corrected => Grid.Cost(c.grid, -pGrid, u.priceBuy, u.priceSell)
  }

  function Flag(b: bool): nat { if b then 1 else 0 }

  /** Number of raised flags. */
  function Count(v: Violations): (n: nat)
    ensures n <= 6
    ensures n == 0 <==> !(v.socHigh || v.socLow || v.tempHigh || v.tempLow || v.loadUnmetElec || v.loadUnmetThermal)
  {
    Flag(v.socHigh) + Flag(v.socLow) + Flag(v.tempHigh) + Flag(v.tempLow)
      + Flag(v.loadUnmetElec) + Flag(v.loadUnmetThermal)
  }

  /** The flags: state outside its band, and loads that even full import
      (electrical) or full rated store discharge (thermal) could not meet. */
  function Check(c: Config, e: Electrical, th: Thermal, qChp: real): (v: Violations)
    ensures Battery.InBounds(c.battery, e.battery) ==> !v.socHigh && !v.socLow
    ensures ThermalStorage.InBounds(c.tes, th.tes) ==> !v.tempHigh && !v.tempLow
    ensures v.loadUnmetElec <==> Supply(e) + c.grid.powerImportMax < e.load
    ensures v.loadUnmetThermal <==> qChp + th.boiler.qThermal + c.tes.powerDischargeMax < th.load
  {
    Violations(
      e.battery.soc > c.battery.socMax,
      e.battery.soc < c.battery.socMin,
      th.tes.temp > c.tes.tempMax,
      th.tes.temp < c.tes.tempMin,
      e.pPv + e.pWt + e.chp.pElec + c.grid.powerImportMax < e.load,
      qChp + th.boiler.qThermal + c.tes.powerDischargeMax < th.load)
  }

  // ---------------------------------------------------------------------
  // The step
  // ---------------------------------------------------------------------

  function StepUnder(c: Config, acct: Accounting, m: Microgrid, u: StepInput): (t: Transition)
    requires WellFormed(c)
    ensures Invariant(c, t.next)
    ensures t.out.soc == t.next.battery.soc && t.out.pBattery == t.next.battery.power
    ensures t.out.pChp == t.next.chp.pElec && t.out.qChp == t.next.chp.qThermal
    ensures t.out.tempTes == t.next.tes.temp && t.out.qBoiler == t.next.boiler.qThermal
    ensures t.out.qTesIn == 0.0 || t.out.qTesOut == 0.0
    ensures t.out.loadElec >= 0.0 && t.out.loadThermal >= 0.0
    ensures Physical(c) ==> -c.grid.powerExportMax <= t.out.pGrid <= c.grid.powerImportMax
    ensures Physical(c) ==> t.next.chp.pElec <= c.chp.powerElecMax
    ensures Physical(c) && Invariant(c, m) ==> t.out.qTesIn >= 0.0 && t.out.qTesOut >= 0.0
    ensures t.out.costTotal == t.out.costGrid + t.out.costFuelChp + t.out.costFuelBoiler
    ensures !t.out.violations.socHigh && !t.out.violations.socLow
    ensures !t.out.violations.tempHigh && !t.out.violations.tempLow
    ensures t.out.violationCount == Count(t.out.violations) <= 2
  {
    var e := ElectricalBus(c, acct, m, u);
    var th := ThermalBus(c, m, u, e.chp.qThermal);
    var v := Check(c, e, th, e.chp.qThermal);
    var costGrid := GridCost(c, acct, e.pGrid, u);
    var costChp := Chp.FuelCost(c.chp, e.chp);
    var costBoiler := Boiler.FuelCost(c.boiler, th.boiler);
    var out := StepResult(
      e.battery.soc, e.pPv, e.pWt, e.load, e.battery.power, e.chp.pElec, e.pGrid,
      th.tes.temp, th.load, e.chp.qThermal, th.boiler.qThermal, th.flows.qIn, th.flows.qOut,
      u.irradiance, u.windSpeed, u.ambientTemp,
      costGrid, costChp, costBoiler, costGrid + costChp + costBoiler,
      v, Count(v));
    Transition(Microgrid(e.battery, e.chp, th.tes, th.boiler), out)
  }

  /** The step's report, field by field, in terms of the two buses. */
  lemma StepParts(c: Config, acct: Accounting, m: Microgrid, u: StepInput)
    requires WellFormed(c)
    ensures var e := ElectricalBus(c, acct, m, u);
            var th := ThermalBus(c, m, u, e.chp.qThermal);
            var o := StepUnder(c, acct, m, u).out;
            && StepUnder(c, acct, m, u).next == Microgrid(e.battery, e.chp, th.tes, th.boiler)
            && o.violations == Check(c, e, th, e.chp.qThermal)
            && o.pPv == e.pPv && o.pWt == e.pWt && o.loadElec == e.load && o.loadThermal == th.load
            && o.pGrid == e.pGrid
            && o.costGrid == GridCost(c, acct, e.pGrid, u)
            && o.costFuelChp == Chp.FuelCost(c.chp, e.chp)
            && o.costFuelBoiler == Boiler.FuelCost(c.boiler, th.boiler)
  {
  }

  /** The system step as the source performs it. */
  function Step(c: Config, m: Microgrid, u: StepInput): (t: Transition)
    requires WellFormed(c)
    ensures Invariant(c, t.next)
    ensures t.out.qTesIn == 0.0 || t.out.qTesOut == 0.0
    ensures Physical(c) ==> -c.grid.powerExportMax <= t.out.pGrid <= c.grid.powerImportMax
    ensures Physical(c) ==> t.next.chp.pElec <= c.chp.powerElecMax
    ensures Physical(c) && Invariant(c, m) ==> t.out.qTesIn >= 0.0 && t.out.qTesOut >= 0.0
    ensures t.out.costTotal == t.out.costGrid + t.out.costFuelChp + t.out.costFuelBoiler
    ensures t.out.violationCount == Count(t.out.violations) <= 2
  {
    StepUnder(c, AsWritten, m, u)
  }

  /** What every report satisfies: at most the two load flags raised, the
      total is the sum of its parts, and the store is not charged and
      discharged at once. */
  predicate Consistent(o: StepResult) {
    && o.violationCount == Count(o.violations) <= 2
    && o.costTotal == o.costGrid + o.costFuelChp + o.costFuelBoiler
    && (o.qTesIn == 0.0 || o.qTesOut == 0.0)
  }

  /** A report within the grid's exchange limits and the CHP's rating. */
  predicate WithinRatings(c: Config, o: StepResult) {
    && -c.grid.powerExportMax <= o.pGrid <= c.grid.powerImportMax
    && o.pChp <= c.chp.powerElecMax
  }

  /** A report whose store flows are both non-negative. */
  predicate FlowsNonNegative(o: StepResult) {
    o.qTesIn >= 0.0 && o.qTesOut >= 0.0
  }

  /** A sequence of steps from a given state, collecting every report. */
  function Run(c: Config, acct: Accounting, m: Microgrid, inputs: seq<StepInput>): (r: (Microgrid, seq<StepResult>))
    requires WellFormed(c)
    ensures |r.1| == |inputs|
    ensures |inputs| == 0 ==> r.0 == m
    ensures |inputs| > 0 ==> Invariant(c, r.0)
    ensures forall i :: 0 <= i < |r.1| ==> Consistent(r.1[i])
    ensures Physical(c) ==> forall i :: 0 <= i < |r.1| ==> WithinRatings(c, r.1[i])
    ensures Physical(c) && Invariant(c, m) ==> forall i :: 0 <= i < |r.1| ==> FlowsNonNegative(r.1[i])
    decreases |inputs|
  {
    if |inputs| == 0 then (m, [])
    else
      var t := StepUnder(c, acct, m, inputs[0]);
      var rest := Run(c, acct, t.next, inputs[1..]);
      var reports := [t.out] + rest.1;
      assert Consistent(t.out);
      assert Physical(c) ==> WithinRatings(c, t.out);
      assert Physical(c) && Invariant(c, m) ==> FlowsNonNegative(t.out);
      (rest.0, reports)
  }

  // ---------------------------------------------------------------------
  // Balances
  // ---------------------------------------------------------------------

  /** The balance the step actually settles when the grid limits do not
      bind: a charging battery is charged to the bus at its raw command,
      and a discharging battery is counted as a consumer of its discharge. */
  lemma AsWrittenElectricalBalance(c: Config, m: Microgrid, u: StepInput)
    requires WellFormed(c)
    ensures var o := Step(c, m, u).out;
            -c.grid.powerExportMax < o.pGrid < c.grid.powerImportMax ==>
              (u.batteryCmd >= 0.0 ==> o.pPv + o.pWt + o.pChp + o.pGrid == o.loadElec + u.batteryCmd) &&
              (u.batteryCmd < 0.0 ==> o.pPv + o.pWt + o.pChp + o.pGrid == o.loadElec - o.pBattery)
  {
    var e := ElectricalBus(c, AsWritten, m, u);
    assert Step(c, m, u).out.pGrid == e.pGrid;
  }

  /** With the corrected accounting, whenever the grid limits do not bind
      the electrical bus balances: supply plus import equals load plus the
      battery's actual charging power (negative when it discharges). */
  lemma CorrectedElectricalBalance(c: Config, m: Microgrid, u: StepInput)
    requires WellFormed(c)
    ensures var o := StepUnder(c, Corrected, m, u).out;
            -c.grid.powerExportMax < o.pGrid < c.grid.powerImportMax ==>
              o.pPv + o.pWt + o.pChp + o.pGrid == o.loadElec + o.pBattery
  {
    var e := ElectricalBus(c, Corrected, m, u);
    assert StepUnder(c, Corrected, m, u).out.pGrid == e.pGrid;
  }

  /** The thermal bus balances whenever the store can take up the
      mismatch: a deficit it can cover is covered exactly, and a surplus it
      can absorb is absorbed exactly. */
  lemma ThermalBalance(c: Config, acct: Accounting, m: Microgrid, u: StepInput)
    requires WellFormed(c)
    ensures var o := StepUnder(c, acct, m, u).out;
            var deficit := o.loadThermal - (o.qChp + o.qBoiler);
            (deficit > 0.0 && deficit <= ThermalStorage.AvailableDischarge(c.tes, DtHours(c), m.tes) ==>
               o.qChp + o.qBoiler + o.qTesOut == o.loadThermal) &&
            (deficit <= 0.0 && -deficit <= ThermalStorage.AvailableCharge(c.tes, DtHours(c), m.tes) ==>
               o.qChp + o.qBoiler == o.loadThermal + o.qTesIn)
  {
    var e := ElectricalBus(c, acct, m, u);
    var th := ThermalBus(c, m, u, e.chp.qThermal);
    var o := StepUnder(c, acct, m, u).out;
    assert o.qTesIn == th.flows.qIn && o.qTesOut == th.flows.qOut;
    assert o.loadThermal == th.load && o.qChp == e.chp.qThermal && o.qBoiler == th.boiler.qThermal;
  }

  /** A step reports no violation exactly when renewables, CHP and full
      import could carry the electrical load and CHP, boiler and the store's
      rated discharge could carry the heat load. */
  lemma CleanStepIff(c: Config, acct: Accounting, m: Microgrid, u: StepInput)
    requires WellFormed(c)
    ensures var o := StepUnder(c, acct, m, u).out;
            o.violationCount == 0 <==>
              (o.loadElec <= o.pPv + o.pWt + o.pChp + c.grid.powerImportMax &&
               o.loadThermal <= o.qChp + o.qBoiler + c.tes.powerDischargeMax)
  {
    StepParts(c, acct, m, u);
    var e := ElectricalBus(c, acct, m, u);
    var th := ThermalBus(c, m, u, e.chp.qThermal);
    var o := StepUnder(c, acct, m, u).out;
    assert o.loadElec == e.load && o.pPv == e.pPv && o.pWt == e.pWt && o.pChp == e.chp.pElec;
    assert o.loadThermal == th.load && o.qChp == e.chp.qThermal && o.qBoiler == th.boiler.qThermal;
  }

  /** Loads within the grid's import rating and the store's discharge
      rating are never flagged, whatever the weather and the set-points, as
      long as the renewables cannot produce negative power. */
  lemma CleanWhenRatingsCover(c: Config, acct: Accounting, m: Microgrid, u: StepInput)
    requires WellFormed(c)
    requires u.irradiance >= 0.0 && c.res.pvArea >= 0.0
    requires c.res.airDensity >= 0.0 && c.res.wtRotorArea >= 0.0 && c.res.wtCp >= 0.0
    requires 0.0 <= u.loadElec <= c.grid.powerImportMax
    requires 0.0 <= u.loadThermal <= c.tes.powerDischargeMax
    ensures StepUnder(c, acct, m, u).out.violationCount == 0
  {
    StepParts(c, acct, m, u);
    CleanStepIff(c, acct, m, u);
    Renewables.WindNonNegative(c.res, u.windSpeed);
  }

  /** As written, the two accountings ask the grid for different amounts
      exactly when the battery command is a discharge or exceeds the
      rating: a discharge of `p` kW is counted twice over (as `2|p|` more
      import), and an over-rated charge command is counted at its raw
      value rather than at the rating. */
  lemma AccountingsDiffer(c: Config, m: Microgrid, u: StepInput)
    requires WellFormed(c)
    ensures var w := ElectricalBus(c, AsWritten, m, u);
            var k := ElectricalBus(c, Corrected, m, u);
            && w.battery == k.battery
            && (u.batteryCmd >= 0.0 ==> w.request - k.request == u.batteryCmd - w.battery.power)
            && (u.batteryCmd < 0.0 ==> w.request - k.request == -2.0 * w.battery.power > 0.0)
            && (w.request == k.request <==> 0.0 <= u.batteryCmd <= c.battery.powerMax)
  {
    var w := ElectricalBus(c, AsWritten, m, u);
    var k := ElectricalBus(c, Corrected, m, u);
    assert w.battery == k.battery && w.load == k.load && Supply(w) == Supply(k);
  }

  /** The grid bill's sign as written: buying (positive exchange) at a
      positive sell price is booked as revenue, and selling at a positive
      buy price as an expense. */
  lemma GridCostSignAsWritten(c: Config, m: Microgrid, u: StepInput)
    requires WellFormed(c)
    ensures var o := Step(c, m, u).out;
            (o.pGrid > 0.0 && Grid.SellPrice(c.grid, u.priceSell) > 0.0 ==> o.costGrid < 0.0) &&
            (o.pGrid < 0.0 && Grid.BuyPrice(c.grid, u.priceBuy) > 0.0 ==> o.costGrid > 0.0)
  {
    StepParts(c, AsWritten, m, u);
  }

  /** The grid bill's sign when corrected: buying is an expense at the buy
      price and selling is revenue at the sell price. */
  lemma GridCostSignCorrected(c: Config, m: Microgrid, u: StepInput)
    requires WellFormed(c)
    ensures var o := StepUnder(c, Corrected, m, u).out;
            (o.pGrid > 0.0 && Grid.BuyPrice(c.grid, u.priceBuy) > 0.0 ==> o.costGrid > 0.0) &&
            (o.pGrid < 0.0 && Grid.SellPrice(c.grid, u.priceSell) > 0.0 ==> o.costGrid < 0.0)
  {
    StepParts(c, Corrected, m, u);
  }

  // ---------------------------------------------------------------------
  // Runs
  // ---------------------------------------------------------------------

  /** Steps from a state through a sequence of inputs with any step
      function, collecting the outputs. */
  function Scan<S, I, O>(step: (S, I) -> (S, O), s: S, xs: seq<I>): (r: (S, seq<O>))
    ensures |r.1| == |xs|
    decreases |xs|
  {
    if |xs| == 0 then (s, [])
    else
      var next := step(s, xs[0]);
      var rest := Scan(step, next.0, xs[1..]);
      (rest.0, [next.1] + rest.1)
  }

  /** Scanning a concatenation is scanning its parts in turn. */
  lemma {:induction false} ScanAppend<S, I, O>(step: (S, I) -> (S, O), s: S, a: seq<I>, b: seq<I>)
    ensures var first := Scan(step, s, a);
            var second := Scan(step, first.0, b);
            Scan(step, s, a + b) == (second.0, first.1 + second.1)
    decreases |a|
  {
    if |a| == 0 {
      assert a + b == b;
      var second := Scan(step, s, b);
      assert [] + second.1 == second.1;
    } else {
      var next := step(s, a[0]);
      assert (a + b)[0] == a[0];
      assert (a + b)[1..] == a[1..] + b;
      ScanAppend(step, next.0, a[1..], b);
      var rest := Scan(step, next.0, a[1..]);
      var second := Scan(step, rest.0, b);
      assert [next.1] + (rest.1 + second.1) == ([next.1] + rest.1) + second.1;
    }
  }

  /** The step as a total function value; an ill-formed configuration
      leaves the state alone and reports nothing. */
  function Stepper(c: Config, acct: Accounting): (Microgrid, StepInput) -> (Microgrid, StepResult)
  {
    (m: Microgrid, u: StepInput) =>
      if WellFormed(c) then var t := StepUnder(c, acct, m, u); (t.next, t.out) else (m, Blank)
  }

  const Blank: StepResult :=
    StepResult(0.0, 0.0, 0.0, 0.0, 0.0, 0.0, 0.0, 0.0, 0.0, 0.0, 0.0, 0.0, 0.0, 0.0, 0.0, 0.0, 0.0, 0.0, 0.0, 0.0,
               Violations(false, false, false, false, false, false), 0)

  /** `Run` is the scan of the step. */
  lemma {:induction false} RunIsScan(c: Config, acct: Accounting, m: Microgrid, xs: seq<StepInput>)
    requires WellFormed(c)
    ensures Run(c, acct, m, xs) == Scan(Stepper(c, acct), m, xs)
    decreases |xs|
  {
    if |xs| > 0 {
      var t := StepUnder(c, acct, m, xs[0]);
      assert Stepper(c, acct)(m, xs[0]) == (t.next, t.out);
      RunIsScan(c, acct, t.next, xs[1..]);
    }
  }

  /** Running two input sequences back to back is running their
      concatenation: the step carries no hidden state beyond the
      component records. */
  lemma RunAppend(c: Config, acct: Accounting, m: Microgrid, a: seq<StepInput>, b: seq<StepInput>)
    requires WellFormed(c)
    ensures var first := Run(c, acct, m, a);
            var second := Run(c, acct, first.0, b);
            Run(c, acct, m, a + b) == (second.0, first.1 + second.1)
  {
    RunIsScan(c, acct, m, a);
    RunIsScan(c, acct, m, a + b);
    RunIsScan(c, acct, Run(c, acct, m, a).0, b);
    ScanAppend(Stepper(c, acct), m, a, b);
  }
}

=== FILE: grid.dfy ===
/** The grid tie's cost of an exchange (components/microgrid_components.py,
    lines 397-441). Here negative power means buying from the grid and
    positive power means selling to it; power limits are applied by the
    caller, not here. */
module Grid {
  import opened Numeric
  import opened Optional
  import opened Parameters

  /** The buy and sell prices in effect: a per-call override when given,
      the configured price otherwise. */
  function BuyPrice(g: GridParams, buy: Option<real>): real { buy.GetOr(g.priceBuy) }
  function SellPrice(g: GridParams, sell: Option<real>): real { sell.GetOr(g.priceSell) }

  /** Cost of exchanging `power` kW for one hour: positive is an expense,
      negative is revenue. */
  function Cost(g: GridParams, power: real, buy: Option<real>, sell: Option<real>): (cost: real)
    ensures power == 0.0 ==> cost == 0.0
    ensures power < 0.0 && BuyPrice(g, buy) >= 0.0 ==> cost >= 0.0
    ensures power > 0.0 && SellPrice(g, sell) >= 0.0 ==> cost <= 0.0
    ensures power < 0.0 && BuyPrice(g, buy) > 0.0 ==> cost > 0.0
    ensures power > 0.0 && SellPrice(g, sell) > 0.0 ==> cost < 0.0
    ensures BuyPrice(g, buy) <= SellPrice(g, sell) ==>
              cost == Min(-power * BuyPrice(g, buy), -power * SellPrice(g, sell))
  {
    var priceBuy := BuyPrice(g, buy);
    var priceSell := SellPrice(g, sell);
    ProductSign(Abs(power), priceBuy);
    ProductSign(power, priceSell);
    if power < 0.0 then
      if priceBuy <= priceSell then MulNonNegMonotone(-power, priceBuy, priceSell); Abs(power) * priceBuy
      else Abs(power) * priceBuy
    else
      if priceBuy <= priceSell then MulNonNegMonotone(power, priceBuy, priceSell); -power * priceSell
      else -power * priceSell
  }

  /** When buying costs more than selling pays (as validation demands), the
      cost is the larger of pricing the exchange at either rate: a convex,
      piecewise-linear function of the exchanged power. */
  lemma CostIsConvexEnvelope(g: GridParams, power: real, buy: Option<real>, sell: Option<real>)
    requires BuyPrice(g, buy) >= SellPrice(g, sell)
    ensures Cost(g, power, buy, sell) == Max(-power * BuyPrice(g, buy), -power * SellPrice(g, sell))
  {
    var pb := BuyPrice(g, buy);
    var ps := SellPrice(g, sell);
    if power < 0.0 {
      assert Cost(g, power, buy, sell) == -power * pb;
      MulNonNegMonotone(-power, ps, pb);
    } else {
      assert Cost(g, power, buy, sell) == -power * ps;
      assert -power * pb <= -power * ps by {
        MulNonNegMonotone(power, ps, pb);
      }
    }
  }

  /** Overrides are used only when given: without them the configured
      prices apply, and with them the configured prices play no part. */
  lemma OverridesOnlyWhenGiven(g: GridParams, g': GridParams, power: real, buy: real, sell: real)
    ensures Cost(g, power, None, None) == Cost(g, power, Some(g.priceBuy), Some(g.priceSell))
    ensures Cost(g, power, Some(buy), Some(sell)) == Cost(g', power, Some(buy), Some(sell))
    ensures power < 0.0 ==> Cost(g, power, Some(buy), None) == Cost(g', power, Some(buy), None)
    ensures power >= 0.0 ==> Cost(g, power, None, Some(sell)) == Cost(g', power, None, Some(sell))
  {
  }
}

=== FILE: numeric.dfy ===
/** Scalar helpers shared by every component: the `min`, `max`, `abs` and
    `np.clip` that the source applies to floating-point values, stated over
    exact `real` arithmetic. */
module Numeric {

  function Min(a: real, b: real): (r: real)
    ensures r <= a && r <= b
    ensures r == a || r == b
  {
    if a <= b then a else b
  }

  function Max(a: real, b: real): (r: real)
    ensures r >= a && r >= b
    ensures r == a || r == b
  {
    if a >= b then a else b
  }

  function Abs(x: real): (r: real)
    ensures r >= 0.0
    ensures r == x || r == -x
  {
    if x < 0.0 then -x else x
  }

  /** `np.clip(x, lo, hi)`, which numpy computes as `min(max(x, lo), hi)`;
      with an empty interval (`lo > hi`) it yields `hi`. */
  function Clip(x: real, lo: real, hi: real): (r: real)
    ensures r <= hi
    ensures lo <= hi ==> lo <= r
    ensures lo <= x <= hi ==> r == x
    ensures x < lo && lo <= hi ==> r == lo
    ensures x > hi ==> r == hi
  {
    Min(Max(x, lo), hi)
  }

  // Monotonicity of the operations above, for the proofs that need it.

  lemma MulNonNegMonotone(a: real, x: real, y: real)
    requires a >= 0.0 && x <= y
    ensures a * x <= a * y
  {
    assert a * y - a * x == a * (y - x);
  }

  lemma MulPosStrictMonotone(a: real, x: real, y: real)
    requires a > 0.0 && x < y
    ensures a * x < a * y
  {
    assert a * y - a * x == a * (y - x);
  }

  lemma MulNonPosAntitone(a: real, x: real, y: real)
    requires a <= 0.0 && x <= y
    ensures a * y <= a * x
  {
    MulNonNegMonotone(-a, x, y);
  }

  lemma MulNegStrictAntitone(a: real, x: real, y: real)
    requires a < 0.0 && x < y
    ensures a * y < a * x
  {
    MulPosStrictMonotone(-a, x, y);
  }

  lemma MaxMonotone(a: real, x: real, y: real)
    requires x <= y
    ensures Max(a, x) <= Max(a, y)
  {
  }

  lemma ClipMonotone(x: real, y: real, lo: real, hi: real)
    requires x <= y
    ensures Clip(x, lo, hi) <= Clip(y, lo, hi)
  {
  }

  lemma DivMonotone(x: real, y: real, c: real)
    requires c > 0.0 && x <= y
    ensures x / c <= y / c
  {
    assert y / c - x / c == (y - x) / c;
  }

  lemma DivMin(x: real, y: real, c: real)
    requires c > 0.0
    ensures Min(x, y) / c == Min(x / c, y / c)
  {
    if x <= y {
      DivMonotone(x, y, c);
    } else {
      DivMonotone(y, x, c);
    }
  }

  lemma ProductSign(a: real, b: real)
    ensures a >= 0.0 && b >= 0.0 ==> a * b >= 0.0
    ensures a > 0.0 && b > 0.0 ==> a * b > 0.0
  {
    if a >= 0.0 && b >= 0.0 {
      MulNonNegMonotone(a, 0.0, b);
    }
    if a > 0.0 && b > 0.0 {
      MulPosStrictMonotone(a, 0.0, b);
    }
  }
}

=== FILE: optional.dfy ===
/** The optional per-call price overrides of the grid interface. */
module Optional {

  datatype Option<T> = None | Some(value: T) {

    /** The carried value, or `default` when there is none. */
    function GetOr(default: T): (r: T)
      ensures Some? ==> r == value
      ensures None? ==> r == default
    {
      match this
      case Some(v) => v
      case None => default
    }
  }
}

=== FILE: parameters.dfy ===
/** Parameter records of the microgrid, their defaults, and the validity
    checks each record performs when it is constructed
    (components/microgrid_components.py, lines 51-196).

    Fields that never influence the dynamics (the battery's round-trip
    efficiency and cycle life, the CHP start-up time, the grid's dynamic-price
    switch) are not represented. */
module Parameters {

  datatype BatteryParams = BatteryParams(
    energyCapacity: real,  // kWh
    powerMax: real,        // kW, both directions
    socMin: real,
    socMax: real,
    etaCharge: real,
    etaDischarge: real)

  datatype ChpParams = ChpParams(
    powerElecMax: real,    // kW
    etaElec: real,         // validated, otherwise unused
    etaThermal: real,
    rampRateUp: real,      // commented as kW/min, applied per hour
    rampRateDown: real,
    minLoad: real,         // kW
    fuelCost: real)        // per kWh of electrical output

  datatype TesParams = TesParams(
    energyCapacity: real,  // kWh
    tempMin: real,         // degrees C
    tempMax: real,
    tempAmbient: real,
    uLoss: real,           // kW per degree C
    powerChargeMax: real,
    powerDischargeMax: real)

  datatype BoilerParams = BoilerParams(powerMax: real, eta: real, fuelCost: real)

  datatype ResParams = ResParams(
    pvArea: real,          // m^2
    pvEfficiency: real,
    pvTempCoeff: real,     // per degree C
    pvRefTemp: real,
    wtRotorArea: real,     // m^2
    wtCp: real,
    airDensity: real)      // kg/m^3

  datatype GridParams = GridParams(
    powerImportMax: real,
    powerExportMax: real,
    priceBuy: real,
    priceSell: real)

  datatype Config = Config(
    battery: BatteryParams,
    chp: ChpParams,
    tes: TesParams,
    boiler: BoilerParams,
    res: ResParams,
    grid: GridParams,
    timestepMinutes: real)

  /** The step length in hours, as every component receives it. */
  function DtHours(c: Config): (h: real)
    ensures h * 60.0 == c.timestepMinutes
  {
    c.timestepMinutes / 60.0
  }

  // ---------------------------------------------------------------------
  // Defaults (the dataclass field defaults)
  // ---------------------------------------------------------------------

  const DefaultBattery := BatteryParams(50.0, 20.0, 0.20, 1.00, 0.95, 0.95)
  const DefaultChp := ChpParams(15.0, 0.40, 0.50, 5.0, 5.0, 3.0, 0.05)
  const DefaultTes := TesParams(100.0, 45.0, 65.0, 20.0, 0.5, 25.0, 25.0)
  const DefaultBoiler := BoilerParams(20.0, 0.85, 0.08)
  const DefaultRes := ResParams(50.0, 0.20, -0.004, 25.0, 150.0, 0.35, 1.225)
  const DefaultGrid := GridParams(50.0, 50.0, 0.15, 0.08)
  const DefaultConfig := Config(DefaultBattery, DefaultChp, DefaultTes, DefaultBoiler,
                                DefaultRes, DefaultGrid, 60.0)

  // ---------------------------------------------------------------------
  // Construction-time validation, as written
  // ---------------------------------------------------------------------

  /** One constructor per failing assertion of the parameter records. */
  datatype ConfigError =
    | BatteryCapacity
    | BatteryPower
    | SocLimits
    | BatteryEfficiency
    | ChpLimits
    | ChpEfficiency
    | TesTemperatures
    | TesCapacity
    | TesLoss
    | BoilerLimits
    | GridPrices

  datatype Outcome = Pass | Fail(error: ConfigError)

  /** The battery's SOC-limit assertion exactly as written: the upper limit
      must be strictly below one. */
  predicate SocLimitsAsWritten(b: BatteryParams) {
    0.0 < b.socMin < b.socMax < 1.0
  }

  predicate BatteryValidAsWritten(b: BatteryParams) {
    && b.energyCapacity > 0.0
    && b.powerMax > 0.0
    && SocLimitsAsWritten(b)
    && 0.0 < b.etaCharge <= 1.0
    && 0.0 < b.etaDischarge <= 1.0
  }

  predicate ChpValid(c: ChpParams) {
    && c.powerElecMax > 0.0 && c.minLoad > 0.0
    && 0.0 < c.etaElec < 1.0 && 0.0 < c.etaThermal < 1.0
  }

  predicate TesValid(t: TesParams) {
    && t.tempMin < t.tempMax
    && t.energyCapacity > 0.0
    && 0.0 < t.uLoss <= 2.0
  }

  predicate BoilerValid(b: BoilerParams) {
    b.powerMax > 0.0 && 0.0 < b.eta <= 1.0
  }

  predicate GridValid(g: GridParams) {
    g.priceBuy > g.priceSell
  }

  predicate ValidAsWritten(c: Config) {
    && BatteryValidAsWritten(c.battery)
    && ChpValid(c.chp)
    && TesValid(c.tes)
    && BoilerValid(c.boiler)
    && GridValid(c.grid)
  }

  function CheckBattery(b: BatteryParams): Outcome {
    if !(b.energyCapacity > 0.0) then Fail(BatteryCapacity)
    else if !(b.powerMax > 0.0) then Fail(BatteryPower)
    else if !SocLimitsAsWritten(b) then Fail(SocLimits)
    else if !(0.0 < b.etaCharge <= 1.0 && 0.0 < b.etaDischarge <= 1.0) then Fail(BatteryEfficiency)
    else Pass
  }

  function CheckChp(c: ChpParams): Outcome {
    if !(c.powerElecMax > 0.0 && c.minLoad > 0.0) then Fail(ChpLimits)
    else if !(0.0 < c.etaElec < 1.0 && 0.0 < c.etaThermal < 1.0) then Fail(ChpEfficiency)
    else Pass
  }

  function CheckTes(t: TesParams): Outcome {
    if !(t.tempMin < t.tempMax) then Fail(TesTemperatures)
    else if !(t.energyCapacity > 0.0) then Fail(TesCapacity)
    else if !(0.0 < t.uLoss <= 2.0) then Fail(TesLoss)
    else Pass
  }

  /** Constructing a configuration runs the records' assertions in field
      order (battery, CHP, thermal storage, boiler, grid; the renewable record
      checks nothing) and stops at the first one that fails. */
  function Validate(c: Config): (r: Outcome)
    ensures r.Pass? <==> ValidAsWritten(c)
    ensures r == Fail(BatteryCapacity) <==> c.battery.energyCapacity <= 0.0
    ensures r == Fail(BatteryPower) <==> c.battery.energyCapacity > 0.0 && c.battery.powerMax <= 0.0
    ensures r == Fail(SocLimits) <==>
              c.battery.energyCapacity > 0.0 && c.battery.powerMax > 0.0 && !SocLimitsAsWritten(c.battery)
    ensures r == Fail(BatteryEfficiency) <==>
              && c.battery.energyCapacity > 0.0 && c.battery.powerMax > 0.0 && SocLimitsAsWritten(c.battery)
              && !(0.0 < c.battery.etaCharge <= 1.0 && 0.0 < c.battery.etaDischarge <= 1.0)
    ensures r == Fail(ChpLimits) <==>
              BatteryValidAsWritten(c.battery) && (c.chp.powerElecMax <= 0.0 || c.chp.minLoad <= 0.0)
    ensures r == Fail(ChpEfficiency) <==>
              && BatteryValidAsWritten(c.battery) && c.chp.powerElecMax > 0.0 && c.chp.minLoad > 0.0
              && !(0.0 < c.chp.etaElec < 1.0 && 0.0 < c.chp.etaThermal < 1.0)
    ensures r == Fail(TesTemperatures) <==>
              BatteryValidAsWritten(c.battery) && ChpValid(c.chp) && c.tes.tempMin >= c.tes.tempMax
    ensures r == Fail(TesCapacity) <==>
              && BatteryValidAsWritten(c.battery) && ChpValid(c.chp)
              && c.tes.tempMin < c.tes.tempMax && c.tes.energyCapacity <= 0.0
    ensures r == Fail(TesLoss) <==>
              && BatteryValidAsWritten(c.battery) && ChpValid(c.chp)
              && c.tes.tempMin < c.tes.tempMax && c.tes.energyCapacity > 0.0
              && !(0.0 < c.tes.uLoss <= 2.0)
    ensures r == Fail(BoilerLimits) <==>
              BatteryValidAsWritten(c.battery) && ChpValid(c.chp) && TesValid(c.tes) && !BoilerValid(c.boiler)
    ensures r == Fail(GridPrices) <==>
              && BatteryValidAsWritten(c.battery) && ChpValid(c.chp) && TesValid(c.tes) && BoilerValid(c.boiler)
              && c.grid.priceBuy <= c.grid.priceSell
  {
    if CheckBattery(c.battery).Fail? then CheckBattery(c.battery)
    else if CheckChp(c.chp).Fail? then CheckChp(c.chp)
    else if CheckTes(c.tes).Fail? then CheckTes(c.tes)
    else if !BoilerValid(c.boiler) then Fail(BoilerLimits)
    else if !GridValid(c.grid) then Fail(GridPrices)
    else Pass
  }

  /** The shipped defaults are rejected by the record's own assertion: the
      default upper SOC limit of 1.00 is not strictly below one. */
  lemma DefaultsRejected()
    ensures Validate(DefaultConfig) == Fail(SocLimits)
    ensures !ValidAsWritten(DefaultConfig)
  {
  }

  // ---------------------------------------------------------------------
  // Validity the rest of the model relies on
  // ---------------------------------------------------------------------

  /** Battery validity with the SOC limit as evidently intended: an upper
      limit of 100 % is admitted, which the default 1.00 needs. */
  predicate BatteryValid(b: BatteryParams) {
    && b.energyCapacity > 0.0
    && b.powerMax > 0.0
    && 0.0 < b.socMin < b.socMax <= 1.0
    && 0.0 < b.etaCharge <= 1.0
    && 0.0 < b.etaDischarge <= 1.0
  }

  predicate Valid(c: Config) {
    && BatteryValid(c.battery)
    && ChpValid(c.chp)
    && TesValid(c.tes)
    && BoilerValid(c.boiler)
    && GridValid(c.grid)
  }

  /** What a simulation step needs: a valid configuration and a positive
      time step (the time step is divided by in the storage queries). */
  predicate WellFormed(c: Config) {
    Valid(c) && c.timestepMinutes > 0.0
  }

  /** Assumptions the source never checks but its physics presumes:
      non-negative ramp rates, a minimum load the unit can reach, and
      non-negative grid and storage power limits. */
  predicate Physical(c: Config) {
    && WellFormed(c)
    && c.chp.rampRateUp >= 0.0 && c.chp.rampRateDown >= 0.0
    && c.chp.minLoad <= c.chp.powerElecMax
    && c.grid.powerImportMax >= 0.0 && c.grid.powerExportMax >= 0.0
    && c.tes.powerChargeMax >= 0.0 && c.tes.powerDischargeMax >= 0.0
  }

  /** Every configuration the constructor accepts satisfies the corrected
      predicate, and the corrected predicate admits the defaults. */
  lemma CorrectedValidityWidens(c: Config)
    ensures ValidAsWritten(c) ==> Valid(c)
    ensures Physical(DefaultConfig)
    ensures Valid(c) && c.battery.socMax < 1.0 ==> ValidAsWritten(c)
  {
  }
}

=== FILE: renewables.dfy ===
/** Non-dispatchable generation: the photovoltaic array and the wind turbine
    (components/microgrid_components.py, lines 203-306). Both are pure
    functions of the weather; neither checks its inputs for plausibility. */
module Renewables {
  import opened Numeric
  import opened Parameters

  const CutInSpeed: real := 3.0    // m/s
  const CutOutSpeed: real := 25.0  // m/s

  /** Rough cell temperature: ambient plus 20 degrees per 1000 W/m^2. */
  function CellTemperature(irradiance: real, ambientTemp: real): real {
    ambientTemp + (irradiance / 1000.0) * 20.0
  }

  /** Efficiency `eff` derated linearly by `c` per degree of cell
      temperature `d` above the reference. */
  function Derated(eff: real, c: real, d: real): real {
    eff * (1.0 + c * d)
  }

  /** Temperature-derated cell efficiency, floored at zero. */
  function PvEfficiency(p: ResParams, irradiance: real, ambientTemp: real): (eta: real)
    ensures eta >= 0.0
  {
    Max(0.0, Derated(p.pvEfficiency, p.pvTempCoeff, CellTemperature(irradiance, ambientTemp) - p.pvRefTemp))
  }

  /** PV output in kW. */
  function PvOutput(p: ResParams, irradiance: real, ambientTemp: real): (kw: real)
    ensures irradiance == 0.0 ==> kw == 0.0
    ensures irradiance >= 0.0 && p.pvArea >= 0.0 ==> kw >= 0.0
  {
    var eta := PvEfficiency(p, irradiance, ambientTemp);
    assert irradiance >= 0.0 && p.pvArea >= 0.0 ==> irradiance * p.pvArea >= 0.0;
    irradiance * p.pvArea * eta / 1000.0
  }

  /** `0.5 * rho * A * cp / 1000`: the turbine's kW per (m/s)^3 inside its band. */
  function WindCoefficient(p: ResParams): real {
    0.5 * p.airDensity * p.wtRotorArea * p.wtCp / 1000.0
  }

  function Cube(v: real): real { v * v * v }

  /** Wind-turbine output in kW. */
  function WindOutput(p: ResParams, windSpeed: real): (kw: real)
    ensures windSpeed < CutInSpeed || windSpeed > CutOutSpeed ==> kw == 0.0
    ensures CutInSpeed <= windSpeed <= CutOutSpeed ==> kw == WindCoefficient(p) * Cube(windSpeed)
  {
    if windSpeed < CutInSpeed || windSpeed > CutOutSpeed then 0.0
    else (0.5 * p.airDensity * p.wtRotorArea * Cube(windSpeed) * p.wtCp) / 1000.0
  }

  // ---------------------------------------------------------------------
  // Properties
  // ---------------------------------------------------------------------

  /** Cubic law: inside the operating band, output scales with the cube of
      the wind speed, whatever the turbine parameters. */
  lemma WindCubicLaw(p: ResParams, v1: real, v2: real)
    requires CutInSpeed <= v1 <= CutOutSpeed && CutInSpeed <= v2 <= CutOutSpeed
    ensures WindOutput(p, v2) * Cube(v1) == WindOutput(p, v1) * Cube(v2)
  {
    var k := WindCoefficient(p);
    calc {
      WindOutput(p, v2) * Cube(v1);
      (k * Cube(v2)) * Cube(v1);
      { MulCommAssoc(k, Cube(v2), Cube(v1)); }
      (k * Cube(v1)) * Cube(v2);
      WindOutput(p, v1) * Cube(v2);
    }
  }

  lemma MulCommAssoc(a: real, b: real, c: real)
    ensures (a * b) * c == (a * c) * b
  {
  }

  /** The ratio the cubic-law test expects: output at 15 m/s is exactly
      (15/10)^3 = 3.375 times the output at 10 m/s. */
  lemma WindFifteenOverTen(p: ResParams)
    ensures WindOutput(p, 15.0) == 3.375 * WindOutput(p, 10.0)
  {
    WindCubicLaw(p, 10.0, 15.0);
    assert Cube(10.0) == 1000.0 && Cube(15.0) == 3375.0;
  }

  /** With physical turbine parameters, output does not decrease with wind
      speed inside the band. */
  lemma WindMonotoneInBand(p: ResParams, v1: real, v2: real)
    requires p.airDensity >= 0.0 && p.wtRotorArea >= 0.0 && p.wtCp >= 0.0
    requires CutInSpeed <= v1 <= v2 <= CutOutSpeed
    ensures WindOutput(p, v1) <= WindOutput(p, v2)
  {
    var k := WindCoefficient(p);
    assert 0.5 * p.airDensity >= 0.0;
    assert 0.5 * p.airDensity * p.wtRotorArea >= 0.0;
    assert k >= 0.0;
    CubeMonotone(v1, v2);
    assert k * Cube(v1) <= k * Cube(v2);
  }

  /** With physical turbine parameters the turbine never draws power. */
  lemma WindNonNegative(p: ResParams, v: real)
    requires p.airDensity >= 0.0 && p.wtRotorArea >= 0.0 && p.wtCp >= 0.0
    ensures WindOutput(p, v) >= 0.0
  {
    if CutInSpeed <= v <= CutOutSpeed {
      WindMonotoneInBand(p, CutInSpeed, v);
      CubeMonotone(0.0, CutInSpeed);
      assert WindCoefficient(p) >= 0.0 by {
        assert 0.5 * p.airDensity * p.wtRotorArea >= 0.0;
      }
      MulNonNegMonotone(WindCoefficient(p), 0.0, Cube(CutInSpeed));
    }
  }

  lemma CubeMonotone(a: real, b: real)
    requires 0.0 <= a <= b
    ensures Cube(a) <= Cube(b)
  {
    assert a * a <= b * b by {
      assert a * a <= a * b;
      assert a * b <= b * b;
    }
    assert a * a * a <= b * b * a;
    assert b * b * a <= b * b * b;
  }

  /** A colder day never yields less PV power when the temperature
      coefficient is non-positive (the derating test at 10 vs 40 degrees). */
  lemma PvNonIncreasingInAmbient(p: ResParams, irradiance: real, t1: real, t2: real)
    requires p.pvTempCoeff <= 0.0 && p.pvEfficiency >= 0.0 && p.pvArea >= 0.0
    requires irradiance >= 0.0 && t1 <= t2
    ensures PvOutput(p, irradiance, t2) <= PvOutput(p, irradiance, t1)
  {
    EfficiencyDerated(p, irradiance, t1, t2);
    OutputFollowsEfficiency(p, irradiance, t1, t2);
  }

  lemma EfficiencyDerated(p: ResParams, irradiance: real, t1: real, t2: real)
    requires p.pvTempCoeff <= 0.0 && p.pvEfficiency >= 0.0 && t1 <= t2
    ensures PvEfficiency(p, irradiance, t2) <= PvEfficiency(p, irradiance, t1)
  {
    var d1 := CellTemperature(irradiance, t1) - p.pvRefTemp;
    var d2 := CellTemperature(irradiance, t2) - p.pvRefTemp;
    DeratedOrder(p.pvEfficiency, p.pvTempCoeff, d1, d2);
    MaxMonotone(0.0, Derated(p.pvEfficiency, p.pvTempCoeff, d2), Derated(p.pvEfficiency, p.pvTempCoeff, d1));
  }

  /** Derating `eff * (1 + c * d)` with a non-positive coefficient never
      rises with the temperature difference `d`. */
  lemma DeratedOrder(eff: real, c: real, d1: real, d2: real)
    requires c <= 0.0 && eff >= 0.0 && d1 <= d2
    ensures Derated(eff, c, d2) <= Derated(eff, c, d1)
  {
    var y1 := 1.0 + c * d1;
    var y2 := 1.0 + c * d2;
    assert y2 <= y1 by { MulNonPosAntitone(c, d1, d2); }
    MulNonNegMonotone(eff, y2, y1);
  }

  /** With a negative coefficient and a positive efficiency the derating
      falls strictly. */
  lemma DeratedStrictOrder(eff: real, c: real, d1: real, d2: real)
    requires c < 0.0 && eff > 0.0 && d1 < d2
    ensures Derated(eff, c, d2) < Derated(eff, c, d1)
  {
    var y1 := 1.0 + c * d1;
    var y2 := 1.0 + c * d2;
    assert y2 < y1 by { MulNegStrictAntitone(c, d1, d2); }
    MulPosStrictMonotone(eff, y2, y1);
  }

  lemma PositivePartStrict(x2: real, x1: real)
    requires x2 < x1 && Max(0.0, x2) > 0.0
    ensures Max(0.0, x2) < Max(0.0, x1)
  {
  }

  /** Output is irradiance times area times efficiency, so on a fixed
      array it orders as the efficiencies do. */
  lemma OutputFollowsEfficiency(p: ResParams, irradiance: real, t1: real, t2: real)
    requires irradiance >= 0.0 && p.pvArea >= 0.0
    requires PvEfficiency(p, irradiance, t2) <= PvEfficiency(p, irradiance, t1)
    ensures PvOutput(p, irradiance, t2) <= PvOutput(p, irradiance, t1)
  {
    var g := irradiance * p.pvArea;
    var e1 := PvEfficiency(p, irradiance, t1);
    var e2 := PvEfficiency(p, irradiance, t2);
    assert PvOutput(p, irradiance, t1) == g * e1 / 1000.0;
    assert PvOutput(p, irradiance, t2) == g * e2 / 1000.0;
    assert g >= 0.0 by { MulNonNegMonotone(irradiance, 0.0, p.pvArea); }
    MulNonNegMonotone(g, e2, e1);
    DivMonotone(g * e2, g * e1, 1000.0);
  }

  lemma OutputStrictlyFollowsEfficiency(p: ResParams, irradiance: real, t1: real, t2: real)
    requires irradiance > 0.0 && p.pvArea > 0.0
    requires PvEfficiency(p, irradiance, t2) < PvEfficiency(p, irradiance, t1)
    ensures PvOutput(p, irradiance, t2) < PvOutput(p, irradiance, t1)
  {
    var g := irradiance * p.pvArea;
    var e1 := PvEfficiency(p, irradiance, t1);
    var e2 := PvEfficiency(p, irradiance, t2);
    assert PvOutput(p, irradiance, t1) == g * e1 / 1000.0;
    assert PvOutput(p, irradiance, t2) == g * e2 / 1000.0;
    assert g > 0.0 by { MulPosStrictMonotone(irradiance, 0.0, p.pvArea); }
    MulPosStrictMonotone(g, e2, e1);
    assert g * e2 / 1000.0 < g * e1 / 1000.0;
  }

  /** Strict derating: with a negative coefficient and positive irradiance,
      a hotter day yields strictly less power as long as the hotter
      efficiency has not been floored at zero. */
  lemma PvStrictlyDeratedWhenHotter(p: ResParams, irradiance: real, t1: real, t2: real)
    requires p.pvTempCoeff < 0.0 && p.pvEfficiency > 0.0 && p.pvArea > 0.0
    requires irradiance > 0.0 && t1 < t2
    requires PvEfficiency(p, irradiance, t2) > 0.0
    ensures PvOutput(p, irradiance, t2) < PvOutput(p, irradiance, t1)
  {
    EfficiencyStrictlyDerated(p, irradiance, t1, t2);
    OutputStrictlyFollowsEfficiency(p, irradiance, t1, t2);
  }

  lemma EfficiencyStrictlyDerated(p: ResParams, irradiance: real, t1: real, t2: real)
    requires p.pvTempCoeff < 0.0 && p.pvEfficiency > 0.0 && t1 < t2
    requires PvEfficiency(p, irradiance, t2) > 0.0
    ensures PvEfficiency(p, irradiance, t2) < PvEfficiency(p, irradiance, t1)
  {
    var d1 := CellTemperature(irradiance, t1) - p.pvRefTemp;
    var d2 := CellTemperature(irradiance, t2) - p.pvRefTemp;
    assert d1 < d2;
    DeratedStrictOrder(p.pvEfficiency, p.pvTempCoeff, d1, d2);
    PositivePartStrict(Derated(p.pvEfficiency, p.pvTempCoeff, d2), Derated(p.pvEfficiency, p.pvTempCoeff, d1));
  }
}

=== FILE: scenarios.dfy ===
/** Concrete behaviour of the model on the default configuration with
    one-hour steps: the demonstration step at the end of
    components/microgrid_components.py and the situations its test suite
    (tests/test_memg_validation.py) exercises, computed exactly.

    As written, the defaults fail the battery's `soc_max < 1` assertion
    (`Parameters.DefaultsRejected`), so the constructor raises before any
    of these steps is taken. The values below are what the step computes
    on the defaults once they are admitted: with assertions disabled, or
    under the corrected check (`Parameters.CorrectedValidityWidens`). */
module Scenarios {
  import opened Optional
  import opened Parameters
  import Renewables
  import Battery
  import Chp
  import ThermalStorage
  import Boiler
  import Grid
  import Engine

  lemma HourSteps()
    ensures DtHours(DefaultConfig) == 1.0
  {
  }

  /** The demonstration step: a sunny, breezy hour with the battery
      charging at 5 kW, the CHP asked for 10 kW and the boiler for 2 kW. */
  const Demo := Engine.StepInput(15.0, 10.0, 800.0, 8.0, 20.0, 5.0, 10.0, 2.0, None, None)

  lemma DemoPv()
    ensures Renewables.PvOutput(DefaultRes, 800.0, 20.0) == 7.648
  {
    assert Renewables.PvEfficiency(DefaultRes, 800.0, 20.0) == 0.1912;
  }

  lemma DemoWind()
    ensures Renewables.WindOutput(DefaultRes, 8.0) == 16.464
  {
    assert Renewables.Cube(8.0) == 512.0;
  }

  lemma DemoBattery()
    ensures Battery.UpdateSoc(DefaultBattery, 1.0, Battery.Initial, 5.0) == Battery.BatteryState(0.595, 5.0)
  {
    assert Battery.ChargeEnergy(DefaultBattery, 1.0, 5.0) == 4.75;
  }

  lemma DemoChp()
    ensures Chp.SetPower(DefaultChp, 1.0, Chp.Initial, 10.0) == Chp.ChpState(10.0, 5.0)
  {
  }

  lemma DemoElectrical()
    ensures Engine.ElectricalBus(DefaultConfig, Engine.AsWritten, Engine.Init(DefaultConfig), Demo) ==
              Engine.Electrical(Battery.BatteryState(0.595, 5.0), Chp.ChpState(10.0, 5.0),
                                7.648, 16.464, 15.0, -14.112, -14.112)
  {
    HourSteps();
    DemoPv();
    DemoWind();
    DemoBattery();
    DemoChp();
  }

  lemma DemoStore()
    ensures ThermalStorage.UpdateTemperature(DefaultTes, 1.0, ThermalStorage.TesState(55.0), 0.0, 3.0) ==
              ThermalStorage.TesState(50.9)
  {
    assert ThermalStorage.Capacitance(DefaultTes) == 5.0;
    assert ThermalStorage.ChargeFlow(DefaultTes, 0.0) == 0.0;
    assert ThermalStorage.DischargeFlow(DefaultTes, 3.0) == 3.0;
    assert ThermalStorage.HeatLoss(DefaultTes, 55.0) == 17.5;
    assert ThermalStorage.Degrees(-20.5, 1.0, 5.0) == -4.1;
  }

  lemma DemoThermal()
    ensures Engine.ThermalBus(DefaultConfig, Engine.Init(DefaultConfig), Demo, 5.0) ==
              Engine.Thermal(ThermalStorage.TesState(50.9), Boiler.BoilerState(2.0), 10.0, Engine.Flows(0.0, 3.0))
  {
    HourSteps();
    var s := ThermalStorage.Initial(DefaultTes);
    assert s.temp == 55.0;
    assert ThermalStorage.Capacitance(DefaultTes) == 5.0;
    assert ThermalStorage.AvailableDischarge(DefaultTes, 1.0, s) == 25.0;
    DemoStore();
  }

  lemma DemoCosts()
    ensures Grid.Cost(DefaultGrid, -14.112, None, None) == 2.1168
    ensures Chp.FuelCost(DefaultChp, Chp.ChpState(10.0, 5.0)) == 0.5
    ensures Boiler.FuelCost(DefaultBoiler, Boiler.BoilerState(2.0)) == 0.16 / 0.85
  {
  }

  /** The demonstration step on the electrical bus: the surplus of
      14.112 kW left after charging the battery is exported. */
  lemma DemoStepElectrical()
    ensures var o := Engine.Step(DefaultConfig, Engine.Init(DefaultConfig), Demo).out;
            && o.pPv == 7.648 && o.pWt == 16.464
            && o.pChp == 10.0 && o.qChp == 5.0
            && o.soc == 0.595 && o.pBattery == 5.0
            && o.pGrid == -14.112
  {
    DemoElectrical();
  }

  /** The demonstration step on the thermal bus: the store covers the
      3 kW heat deficit and, losing 17.5 kW to ambient besides, cools from
      55 to 50.9 degrees. */
  lemma DemoStepThermal()
    ensures var o := Engine.Step(DefaultConfig, Engine.Init(DefaultConfig), Demo).out;
            && o.qBoiler == 2.0 && o.qTesIn == 0.0 && o.qTesOut == 3.0
            && o.tempTes == 50.9
  {
    DemoElectrical();
    DemoThermal();
  }

  /** The demonstration step's bill: the export, its exchange being
      negative, is billed at the buy price. */
  lemma DemoStepCosts()
    ensures var o := Engine.Step(DefaultConfig, Engine.Init(DefaultConfig), Demo).out;
            o.costGrid == 2.1168 && o.costFuelChp == 0.5 && o.costFuelBoiler == 0.16 / 0.85
  {
    DemoElectrical();
    DemoThermal();
    DemoCosts();
  }

  /** Nothing is flagged in the demonstration step. */
  lemma DemoStepClean()
    ensures Engine.Step(DefaultConfig, Engine.Init(DefaultConfig), Demo).out.violationCount == 0
  {
    Engine.StepParts(DefaultConfig, Engine.AsWritten, Engine.Init(DefaultConfig), Demo);
    DemoElectrical();
    DemoThermal();
    var e := Engine.Electrical(Battery.BatteryState(0.595, 5.0), Chp.ChpState(10.0, 5.0),
                               7.648, 16.464, 15.0, -14.112, -14.112);
    var th := Engine.Thermal(ThermalStorage.TesState(50.9), Boiler.BoilerState(2.0), 10.0, Engine.Flows(0.0, 3.0));
    assert Engine.Check(DefaultConfig, e, th, 5.0) == Engine.Violations(false, false, false, false, false, false);
  }

  // ---------------------------------------------------------------------
  // Battery
  // ---------------------------------------------------------------------

  /** Half-hour steps at the full 20 kW charge fill the battery from 50 %
      exactly to 100 % within three steps, and full-power discharge from
      there empties it exactly to the 20 % floor within four, so the five
      hundred of each that the test suite runs end on the bounds. */
  lemma BatterySaturates(n: nat)
    ensures n >= 3 ==> Battery.Repeat(DefaultBattery, 0.5, Battery.Initial, 20.0, n).soc == 1.0
    ensures n >= 4 ==> Battery.Repeat(DefaultBattery, 0.5, Battery.BatteryState(1.0, 20.0), -20.0, n).soc == 0.2
  {
    Battery.RepeatedCharge(DefaultBattery, 0.5, Battery.Initial, 20.0, n);
    assert Battery.ChargeRate(DefaultBattery, 0.5, 20.0) == 0.19;
    assert Battery.Advance(0.5, 0.19, n) == 0.5 + n as real * 0.19;
    Battery.RepeatedDischarge(DefaultBattery, 0.5, Battery.BatteryState(1.0, 20.0), -20.0, n);
    var r := Battery.DischargeRate(DefaultBattery, 0.5, -20.0);
    assert r == 10.0 / 0.95 / 50.0;
    assert Battery.Advance(1.0, -r, n) == 1.0 + n as real * -r;
  }

  /** A 20 kW discharge hour from 59.5 % would remove more than lies above
      the floor, so it stops exactly on the 20 % floor. */
  lemma DrainToFloor()
    ensures Battery.UpdateSoc(DefaultBattery, 1.0, Battery.BatteryState(0.595, 5.0), -20.0) ==
              Battery.BatteryState(0.2, -20.0)
  {
    Battery.DischargeStep(DefaultBattery, 1.0, Battery.BatteryState(0.595, 5.0), -20.0);
    assert Battery.DischargeRate(DefaultBattery, 1.0, -20.0) == 20.0 / 0.95 / 50.0;
  }

  /** At the floor, further discharge hours leave the SOC on the floor. */
  lemma RestAtFloor(n: nat)
    ensures Battery.Repeat(DefaultBattery, 1.0, Battery.BatteryState(0.2, -20.0), -5.0, n).soc == 0.2
  {
    Battery.RepeatedDischarge(DefaultBattery, 1.0, Battery.BatteryState(0.2, -20.0), -5.0, n);
    var r := Battery.DischargeRate(DefaultBattery, 1.0, -5.0);
    assert r == 5.0 / 0.95 / 50.0;
    AdvanceDown(0.2, r, n);
  }

  lemma AdvanceDown(a: real, r: real, n: nat)
    requires r >= 0.0
    ensures Battery.Advance(a, -r, n) <= a
  {
    assert n as real * -r <= 0.0 by {
      assert n as real * r >= 0.0;
    }
  }

  /** The round-trip experiment of the test suite: charge at 5 kW for an
      hour, discharge at 20 kW, then keep discharging at 5 kW for `n`
      hours. The SOC recovered is 3.95 times the 5 kWh nominally put in,
      because the discharge runs down to the 20 % floor rather than back to
      the starting 50 %; a ratio near the 90 % round-trip efficiency is not
      what the model computes. */
  lemma RoundTripRatio(n: nat)
    ensures var charged := Battery.UpdateSoc(DefaultBattery, 1.0, Battery.Initial, 5.0);
            var drained := Battery.UpdateSoc(DefaultBattery, 1.0, charged, -20.0);
            var rested := Battery.Repeat(DefaultBattery, 1.0, drained, -5.0, n);
            && charged.soc == 0.595 && drained.soc == 0.2 && rested.soc == 0.2
            && charged.soc - rested.soc == 3.95 * (5.0 / DefaultBattery.energyCapacity)
  {
    DemoBattery();
    DrainToFloor();
    RestAtFloor(n);
  }

  // ---------------------------------------------------------------------
  // CHP and thermal store
  // ---------------------------------------------------------------------

  /** The CHP tests from cold: a 10 kW command gives 5 kW of heat, a
      100 kW command is held at the 15 kW rating, and a zero command gives
      no heat. */
  lemma ChpFromCold()
    ensures Chp.SetPower(DefaultChp, 1.0, Chp.Initial, 10.0) == Chp.ChpState(10.0, 5.0)
    ensures Chp.SetPower(DefaultChp, 1.0, Chp.Initial, 100.0) == Chp.ChpState(15.0, 7.5)
    ensures Chp.SetPower(DefaultChp, 1.0, Chp.Initial, 0.0) == Chp.ChpState(0.0, 0.0)
  {
  }

  /** The heat-loss test: an idle hour at 65 degrees loses 22.5 kW to the
      20-degree surroundings and ends at 60.5 degrees. */
  lemma StoreLosesHeat()
    ensures ThermalStorage.UpdateTemperature(DefaultTes, 1.0, ThermalStorage.TesState(65.0), 0.0, 0.0) ==
              ThermalStorage.TesState(60.5)
  {
    assert ThermalStorage.Capacitance(DefaultTes) == 5.0;
    assert ThermalStorage.ChargeFlow(DefaultTes, 0.0) == 0.0;
    assert ThermalStorage.DischargeFlow(DefaultTes, 0.0) == 0.0;
    assert ThermalStorage.HeatLoss(DefaultTes, 65.0) == 22.5;
    assert ThermalStorage.Degrees(-22.5, 1.0, 5.0) == -4.5;
  }

  // ---------------------------------------------------------------------
  // Violations
  // ---------------------------------------------------------------------

  /** The normal-operation test's hour. */
  const Normal := Engine.StepInput(10.0, 8.0, 600.0, 7.0, 18.0, 2.0, 6.0, 1.0, None, None)

  /** Nothing is flagged in that hour: full import alone could carry the
      10 kW load and the store's rated discharge alone the 8 kW of heat. */
  lemma NormalOperationClean()
    ensures Engine.Step(DefaultConfig, Engine.Init(DefaultConfig), Normal).out.violationCount == 0
  {
    Engine.CleanWhenRatingsCover(DefaultConfig, Engine.AsWritten, Engine.Init(DefaultConfig), Normal);
  }

  // ---------------------------------------------------------------------
  // Photovoltaics
  // ---------------------------------------------------------------------

  /** At 1000 W/m^2 and 25 degrees ambient the cell runs 20 degrees above
      its reference temperature, so the array delivers 9.2 kW rather than
      the 10 kW nameplate figure the test suite expects. */
  lemma PvAtStandardConditions()
    ensures Renewables.PvOutput(DefaultRes, 1000.0, 25.0) == 9.2
  {
    assert Renewables.PvEfficiency(DefaultRes, 1000.0, 25.0) == 0.184;
  }

  /** The derating test's two days: 9.8 kW at 10 degrees, 8.6 kW at 40. */
  lemma PvColdAndHot()
    ensures Renewables.PvOutput(DefaultRes, 1000.0, 10.0) == 9.8
    ensures Renewables.PvOutput(DefaultRes, 1000.0, 40.0) == 8.6
  {
    assert Renewables.PvEfficiency(DefaultRes, 1000.0, 10.0) == 0.196;
    assert Renewables.PvEfficiency(DefaultRes, 1000.0, 40.0) == 0.172;
  }

  /** Output is not monotone in irradiance: the cell heating that comes
      with it outweighs the extra light at very high irradiance. */
  lemma PvNotMonotoneInIrradiance()
    ensures Renewables.PvOutput(DefaultRes, 5000.0, 20.0) == 31.0
    ensures Renewables.PvOutput(DefaultRes, 10000.0, 20.0) == 22.0
  {
    assert Renewables.PvEfficiency(DefaultRes, 5000.0, 20.0) == 0.124;
    assert Renewables.PvEfficiency(DefaultRes, 10000.0, 20.0) == 0.044;
  }

  // ---------------------------------------------------------------------
  // Grid bill
  // ---------------------------------------------------------------------

  /** The grid-buying test: a 30 kW load on a dull, calm hour. */
  const Buying := Engine.StepInput(30.0, 15.0, 100.0, 3.0, 15.0, 0.0, 8.0, 2.0, None, None)

  /** The dull hour's supply: 1.032 kW of PV, 0.868 kW of wind at the
      cut-in speed, and the CHP at 8 kW, leaving 20.1 kW to import. */
  lemma BuyingSupply()
    ensures Renewables.PvOutput(DefaultRes, 100.0, 15.0) == 1.032
    ensures Renewables.WindOutput(DefaultRes, 3.0) == 0.86821875
    ensures Battery.UpdateSoc(DefaultBattery, 1.0, Battery.Initial, 0.0) == Battery.BatteryState(0.5, 0.0)
    ensures Chp.SetPower(DefaultChp, 1.0, Chp.Initial, 8.0) == Chp.ChpState(8.0, 4.0)
  {
    assert Renewables.PvEfficiency(DefaultRes, 100.0, 15.0) == 0.2064;
    assert Renewables.Cube(3.0) == 27.0;
    assert Battery.ChargeEnergy(DefaultBattery, 1.0, 0.0) == 0.0;
  }

  /** Either accounting imports the 20.1 kW shortfall: the battery is idle,
      so the two ways of settling the bus agree here. */
  lemma BuyingImport(acct: Engine.Accounting)
    ensures Engine.ElectricalBus(DefaultConfig, acct, Engine.Init(DefaultConfig), Buying).pGrid == 20.09978125
  {
    HourSteps();
    BuyingSupply();
  }

  /** As written, the 20.1 kW bought in that hour is booked as revenue at
      the sell price, so the test's expectation of a positive bill fails. */
  lemma BuyingBookedAsRevenue()
    ensures Engine.GridCost(DefaultConfig, Engine.AsWritten, 20.09978125, Buying) == -1.6079825
  {
  }

  /** Under the corrected sign the same hour costs the buy price. */
  lemma BuyingBookedAsExpenseWhenCorrected()
    ensures Engine.GridCost(DefaultConfig, Engine.Corrected, 20.09978125, Buying) == 3.0149671875
  {
  }

  /** The whole step, as written: the first hour of the grid-buying test
      reports the 20.1 kW import and a negative grid bill. */
  lemma BuyingStepEarns()
    ensures var o := Engine.Step(DefaultConfig, Engine.Init(DefaultConfig), Buying).out;
            o.pGrid == 20.09978125 && o.costGrid == -1.6079825
  {
    var m := Engine.Init(DefaultConfig);
    Engine.StepParts(DefaultConfig, Engine.AsWritten, m, Buying);
    BuyingImport(Engine.AsWritten);
    BuyingBookedAsRevenue();
  }

  /** The same step under the corrected accounting pays for the import. */
  lemma BuyingStepPaysWhenCorrected()
    ensures var o := Engine.StepUnder(DefaultConfig, Engine.Corrected, Engine.Init(DefaultConfig), Buying).out;
            o.pGrid == 20.09978125 && o.costGrid == 3.0149671875
  {
    var m := Engine.Init(DefaultConfig);
    Engine.StepParts(DefaultConfig, Engine.Corrected, m, Buying);
    BuyingImport(Engine.Corrected);
    BuyingBookedAsExpenseWhenCorrected();
  }

  /** The total-cost test's hour: a bright, breezy hour with more supply
      than load. */
  const Surplus := Engine.StepInput(12.0, 10.0, 500.0, 6.0, 20.0, 0.0, 7.0, 1.5, None, None)

  /** That hour's supply: 4.9 kW of PV, 6.94575 kW of wind and the CHP at
      7 kW, leaving 6.84575 kW to export. */
  lemma SurplusSupply()
    ensures Renewables.PvOutput(DefaultRes, 500.0, 20.0) == 4.9
    ensures Renewables.WindOutput(DefaultRes, 6.0) == 6.94575
    ensures Battery.UpdateSoc(DefaultBattery, 1.0, Battery.Initial, 0.0) == Battery.BatteryState(0.5, 0.0)
    ensures Chp.SetPower(DefaultChp, 1.0, Chp.Initial, 7.0) == Chp.ChpState(7.0, 3.5)
  {
    assert Renewables.PvEfficiency(DefaultRes, 500.0, 20.0) == 0.196;
    assert Renewables.Cube(6.0) == 216.0;
    assert Battery.ChargeEnergy(DefaultBattery, 1.0, 0.0) == 0.0;
  }

  lemma SurplusExport(acct: Engine.Accounting)
    ensures var e := Engine.ElectricalBus(DefaultConfig, acct, Engine.Init(DefaultConfig), Surplus);
            e.pGrid == -6.84575 && e.chp == Chp.ChpState(7.0, 3.5)
  {
    HourSteps();
    SurplusSupply();
  }

  lemma SurplusBoiler()
    ensures Boiler.SetPower(DefaultBoiler, 1.5) == Boiler.BoilerState(1.5)
    ensures Boiler.FuelCost(DefaultBoiler, Boiler.BoilerState(1.5)) == 0.12 / 0.85
    ensures Chp.FuelCost(DefaultChp, Chp.ChpState(7.0, 3.5)) == 0.35
  {
  }

  lemma SurplusFuel(acct: Engine.Accounting)
    ensures var o := Engine.StepUnder(DefaultConfig, acct, Engine.Init(DefaultConfig), Surplus).out;
            o.costFuelChp == 0.35 && o.costFuelBoiler == 0.12 / 0.85
  {
    var m := Engine.Init(DefaultConfig);
    Engine.StepParts(DefaultConfig, acct, m, Surplus);
    SurplusExport(acct);
    SurplusBoiler();
  }

  lemma SurplusGridCost()
    ensures Engine.GridCost(DefaultConfig, Engine.AsWritten, -6.84575, Surplus) == 1.0268625
    ensures Engine.GridCost(DefaultConfig, Engine.Corrected, -6.84575, Surplus) == -0.54766
  {
  }

  lemma SurplusBilledAsWritten()
    ensures Engine.Step(DefaultConfig, Engine.Init(DefaultConfig), Surplus).out.costGrid == 1.0268625
  {
    var m := Engine.Init(DefaultConfig);
    Engine.StepParts(DefaultConfig, Engine.AsWritten, m, Surplus);
    SurplusExport(Engine.AsWritten);
    SurplusGridCost();
  }

  lemma SurplusBilledWhenCorrected()
    ensures Engine.StepUnder(DefaultConfig, Engine.Corrected, Engine.Init(DefaultConfig), Surplus).out.costGrid == -0.54766
  {
    var m := Engine.Init(DefaultConfig);
    Engine.StepParts(DefaultConfig, Engine.Corrected, m, Surplus);
    SurplusExport(Engine.Corrected);
    SurplusGridCost();
  }

  /** As written, the total-cost test's hour costs about 1.52: the export
      is billed at the buy price, which is what keeps the total positive. */
  lemma SurplusCostsAsWritten()
    ensures Engine.Step(DefaultConfig, Engine.Init(DefaultConfig), Surplus).out.costTotal ==
              1.3768625 + 0.12 / 0.85
  {
    SurplusBilledAsWritten();
    SurplusFuel(Engine.AsWritten);
  }

  /** Under the corrected sign the export earns 0.55 at the sell price and
      the hour's total is negative (about -0.056), below the -0.01 that the
      total-cost test tolerates. */
  lemma SurplusEarnsWhenCorrected()
    ensures var o := Engine.StepUnder(DefaultConfig, Engine.Corrected, Engine.Init(DefaultConfig), Surplus).out;
            o.costTotal == -0.19766 + 0.12 / 0.85 && o.costTotal < -0.01
  {
    SurplusBilledWhenCorrected();
    SurplusFuel(Engine.Corrected);
  }
}

=== FILE: thermal_storage.dfy ===
/** The thermal energy store: a single lumped temperature driven by heat
    in, heat out and a standing loss to ambient
    (components/microgrid_components.py, lines 529-614). */
module ThermalStorage {
  import opened Numeric
  import opened Parameters

  datatype TesState = TesState(temp: real)

  predicate InBounds(t: TesParams, s: TesState) {
    t.tempMin <= s.temp <= t.tempMax
  }

  /** Thermal capacitance in kWh per degree: the whole capacity spans the
      permitted temperature band. */
  function Capacitance(t: TesParams): (cap: real)
    requires TesValid(t)
    ensures cap > 0.0
    ensures cap * (t.tempMax - t.tempMin) == t.energyCapacity
  {
    t.energyCapacity / (t.tempMax - t.tempMin)
  }

  /** A fresh store sits in the middle of its band. */
  function Initial(t: TesParams): (s: TesState)
    requires TesValid(t)
    ensures InBounds(t, s)
    ensures s.temp - t.tempMin == t.tempMax - s.temp
  {
    TesState((t.tempMin + t.tempMax) / 2.0)
  }

  /** Standing loss in kW: proportional to the excess over ambient, and
      never negative, so a store below ambient neither loses nor gains. */
  function HeatLoss(t: TesParams, temp: real): (q: real)
    requires TesValid(t)
    ensures q >= 0.0
    ensures temp <= t.tempAmbient ==> q == 0.0
    ensures temp > t.tempAmbient ==> q > 0.0
  {
    ScaledExcess(t.uLoss, temp - t.tempAmbient);
    Max(0.0, t.uLoss * (temp - t.tempAmbient))
  }

  /** The positive part of a positive multiple of `x` is zero exactly when
      `x` is not positive. */
  lemma ScaledExcess(u: real, x: real)
    requires u > 0.0
    ensures Max(0.0, u * x) >= 0.0
    ensures x <= 0.0 ==> Max(0.0, u * x) == 0.0
    ensures x > 0.0 ==> Max(0.0, u * x) > 0.0
  {
    if x <= 0.0 {
      MulNonNegMonotone(u, x, 0.0);
    } else {
      MulPosStrictMonotone(u, 0.0, x);
    }
  }

  /** Temperature change caused by `q` kW held for `dt` hours. */
  function Degrees(q: real, dt: real, cap: real): real
    requires cap > 0.0
  {
    q * dt / cap
  }

  /** Heat rate that changes the temperature by `m` degrees in `dt` hours. */
  function HeatFor(m: real, dt: real, cap: real): real
    requires dt > 0.0
  {
    m * cap / dt
  }

  lemma DegreesMonotone(q1: real, q2: real, dt: real, cap: real)
    requires cap > 0.0 && dt > 0.0 && q1 <= q2
    ensures Degrees(q1, dt, cap) <= Degrees(q2, dt, cap)
  {
    MulNonNegMonotone(dt, q1, q2);
    assert q1 * dt <= q2 * dt;
    DivMonotone(q1 * dt, q2 * dt, cap);
  }

  lemma DegreesStrictlyNegative(q: real, dt: real, cap: real)
    requires cap > 0.0 && dt > 0.0 && q < 0.0
    ensures Degrees(q, dt, cap) < 0.0
  {
    MulPosStrictMonotone(dt, q, 0.0);
    assert q * dt < 0.0;
  }

  lemma DegreesOfHeatFor(m: real, dt: real, cap: real)
    requires cap > 0.0 && dt > 0.0
    ensures Degrees(HeatFor(m, dt, cap), dt, cap) == m
  {
    var h := HeatFor(m, dt, cap);
    assert h * dt == m * cap;
  }

  /** The inputs after clipping to the store's rated powers. */
  function ChargeFlow(t: TesParams, qIn: real): real { Clip(qIn, 0.0, t.powerChargeMax) }
  function DischargeFlow(t: TesParams, qOut: real): real { Clip(qOut, 0.0, t.powerDischargeMax) }

  /** One step: clip both flows, subtract the loss, integrate, and clamp
      the temperature to the band. */
  function UpdateTemperature(t: TesParams, dt: real, s: TesState, qIn: real, qOut: real): (s': TesState)
    requires TesValid(t) && dt > 0.0
    ensures InBounds(t, s')
  {
    var net := ChargeFlow(t, qIn) - DischargeFlow(t, qOut) - HeatLoss(t, s.temp);
    TesState(Clip(s.temp + Degrees(net, dt, Capacitance(t)), t.tempMin, t.tempMax))
  }

  /** The class docstring's state equation `T + (Q_in - Q_out - Q_loss) dt / C`,
      before any clipping. */
  function IdealTemperature(t: TesParams, dt: real, temp: real, qIn: real, qOut: real): real
    requires TesValid(t)
  {
    temp + (qIn - qOut - HeatLoss(t, temp)) * dt / Capacitance(t)
  }

  /** Largest charge power that keeps the temperature at or below its
      maximum, capped at the rated charge power. */
  function AvailableCharge(t: TesParams, dt: real, s: TesState): (q: real)
    requires TesValid(t) && dt > 0.0
    ensures q <= t.powerChargeMax
    ensures InBounds(t, s) && t.powerChargeMax >= 0.0 ==> q >= 0.0
    ensures Degrees(q, dt, Capacitance(t)) <= t.tempMax - s.temp
    ensures q < t.powerChargeMax ==> Degrees(q, dt, Capacitance(t)) == t.tempMax - s.temp
  {
    var cap := Capacitance(t);
    var q := Min(HeatFor(t.tempMax - s.temp, dt, cap), t.powerChargeMax);
    DegreesOfHeatFor(t.tempMax - s.temp, dt, cap);
    DegreesMonotone(q, HeatFor(t.tempMax - s.temp, dt, cap), dt, cap);
    NonNegativeHeatFor(t.tempMax - s.temp, dt, cap);
    q
  }

  /** Largest discharge power that keeps the temperature at or above its
      minimum, capped at the rated discharge power. */
  function AvailableDischarge(t: TesParams, dt: real, s: TesState): (q: real)
    requires TesValid(t) && dt > 0.0
    ensures q <= t.powerDischargeMax
    ensures InBounds(t, s) && t.powerDischargeMax >= 0.0 ==> q >= 0.0
    ensures Degrees(q, dt, Capacitance(t)) <= s.temp - t.tempMin
    ensures q < t.powerDischargeMax ==> Degrees(q, dt, Capacitance(t)) == s.temp - t.tempMin
  {
    var cap := Capacitance(t);
    var q := Min(HeatFor(s.temp - t.tempMin, dt, cap), t.powerDischargeMax);
    DegreesOfHeatFor(s.temp - t.tempMin, dt, cap);
    DegreesMonotone(q, HeatFor(s.temp - t.tempMin, dt, cap), dt, cap);
    NonNegativeHeatFor(s.temp - t.tempMin, dt, cap);
    q
  }

  lemma NonNegativeHeatFor(m: real, dt: real, cap: real)
    requires cap > 0.0 && dt > 0.0
    ensures m >= 0.0 ==> HeatFor(m, dt, cap) >= 0.0
  {
    if m >= 0.0 {
      MulNonNegMonotone(m, 0.0, cap);
      assert m * cap >= 0.0;
    }
  }

  // ---------------------------------------------------------------------
  // Properties of one step
  // ---------------------------------------------------------------------

  /** The step is the docstring's state equation clamped to the band, fed
      the flows after clipping: flows inside the rated powers are used as
      given, a flow above its rating acts as the rating, and a negative flow
      acts as no flow at all. */
  lemma {:induction false} UpdateIsSaturatedStateEquation(t: TesParams, dt: real, s: TesState, qIn: real, qOut: real)
    requires TesValid(t) && dt > 0.0
    ensures 0.0 <= qIn <= t.powerChargeMax && 0.0 <= qOut <= t.powerDischargeMax ==>
              UpdateTemperature(t, dt, s, qIn, qOut).temp ==
              Clip(IdealTemperature(t, dt, s.temp, qIn, qOut), t.tempMin, t.tempMax)
    ensures qIn >= t.powerChargeMax ==>
              UpdateTemperature(t, dt, s, qIn, qOut) == UpdateTemperature(t, dt, s, t.powerChargeMax, qOut)
    ensures qIn <= 0.0 ==>
              UpdateTemperature(t, dt, s, qIn, qOut) == UpdateTemperature(t, dt, s, 0.0, qOut)
    ensures qOut >= t.powerDischargeMax ==>
              UpdateTemperature(t, dt, s, qIn, qOut) == UpdateTemperature(t, dt, s, qIn, t.powerDischargeMax)
    ensures qOut <= 0.0 ==>
              UpdateTemperature(t, dt, s, qIn, qOut) == UpdateTemperature(t, dt, s, qIn, 0.0)
  {
    if qIn >= t.powerChargeMax {
      SameChargeFlow(t, dt, s, qIn, t.powerChargeMax, qOut);
    }
    if qIn <= 0.0 {
      SameChargeFlow(t, dt, s, qIn, 0.0, qOut);
    }
    if qOut >= t.powerDischargeMax {
      SameDischargeFlow(t, dt, s, qIn, qOut, t.powerDischargeMax);
    }
    if qOut <= 0.0 {
      SameDischargeFlow(t, dt, s, qIn, qOut, 0.0);
    }
    if 0.0 <= qIn <= t.powerChargeMax && 0.0 <= qOut <= t.powerDischargeMax {
      EquationInsideRatings(t, dt, s, qIn, qOut);
    }
  }

  lemma EquationInsideRatings(t: TesParams, dt: real, s: TesState, qIn: real, qOut: real)
    requires TesValid(t) && dt > 0.0
    requires 0.0 <= qIn <= t.powerChargeMax && 0.0 <= qOut <= t.powerDischargeMax
    ensures UpdateTemperature(t, dt, s, qIn, qOut).temp ==
              Clip(IdealTemperature(t, dt, s.temp, qIn, qOut), t.tempMin, t.tempMax)
  {
    assert ChargeFlow(t, qIn) == qIn && DischargeFlow(t, qOut) == qOut;
  }

  /** The step sees a heat input only through its clipped value. */
  lemma SameChargeFlow(t: TesParams, dt: real, s: TesState, qIn1: real, qIn2: real, qOut: real)
    requires TesValid(t) && dt > 0.0
    requires ChargeFlow(t, qIn1) == ChargeFlow(t, qIn2)
    ensures UpdateTemperature(t, dt, s, qIn1, qOut) == UpdateTemperature(t, dt, s, qIn2, qOut)
  {
  }

  /** The step sees a draw only through its clipped value. */
  lemma SameDischargeFlow(t: TesParams, dt: real, s: TesState, qIn: real, qOut1: real, qOut2: real)
    requires TesValid(t) && dt > 0.0
    requires DischargeFlow(t, qOut1) == DischargeFlow(t, qOut2)
    ensures UpdateTemperature(t, dt, s, qIn, qOut1) == UpdateTemperature(t, dt, s, qIn, qOut2)
  {
  }

  /** More heat in never yields a cooler store, and more heat out never a
      warmer one. */
  lemma {:induction false} TemperatureMonotone(t: TesParams, dt: real, s: TesState,
                                               qIn1: real, qIn2: real, qOut1: real, qOut2: real)
    requires TesValid(t) && dt > 0.0
    requires qIn1 <= qIn2 && qOut2 <= qOut1
    ensures UpdateTemperature(t, dt, s, qIn1, qOut1).temp <= UpdateTemperature(t, dt, s, qIn2, qOut2).temp
  {
    ClipMonotone(qIn1, qIn2, 0.0, t.powerChargeMax);
    ClipMonotone(qOut2, qOut1, 0.0, t.powerDischargeMax);
    var cap := Capacitance(t);
    var loss := HeatLoss(t, s.temp);
    var n1 := ChargeFlow(t, qIn1) - DischargeFlow(t, qOut1) - loss;
    var n2 := ChargeFlow(t, qIn2) - DischargeFlow(t, qOut2) - loss;
    DegreesMonotone(n1, n2, dt, cap);
    ClipMonotone(s.temp + Degrees(n1, dt, cap), s.temp + Degrees(n2, dt, cap), t.tempMin, t.tempMax);
  }

  /** Without heat input a store inside its band never warms, whatever is
      drawn from it. */
  lemma {:induction false} NoInputNeverWarms(t: TesParams, dt: real, s: TesState, qIn: real, qOut: real)
    requires TesValid(t) && dt > 0.0 && InBounds(t, s)
    requires t.powerDischargeMax >= 0.0
    requires qIn <= 0.0
    ensures UpdateTemperature(t, dt, s, qIn, qOut).temp <= s.temp
  {
    var cap := Capacitance(t);
    var net := ChargeFlow(t, qIn) - DischargeFlow(t, qOut) - HeatLoss(t, s.temp);
    assert net <= 0.0;
    DegreesMonotone(net, 0.0, dt, cap);
    assert Degrees(0.0, dt, cap) == 0.0;
  }

  /** A store above ambient and above its minimum, with no input and no
      draw, strictly cools: the standing loss is real. */
  lemma {:induction false} IdleStoreCools(t: TesParams, dt: real, s: TesState)
    requires TesValid(t) && dt > 0.0 && InBounds(t, s)
    requires t.powerChargeMax >= 0.0 && t.powerDischargeMax >= 0.0
    requires s.temp > t.tempAmbient && s.temp > t.tempMin
    ensures UpdateTemperature(t, dt, s, 0.0, 0.0).temp < s.temp
  {
    var cap := Capacitance(t);
    var net := ChargeFlow(t, 0.0) - DischargeFlow(t, 0.0) - HeatLoss(t, s.temp);
    assert net == -HeatLoss(t, s.temp);
    DegreesStrictlyNegative(net, dt, cap);
  }

  /** Charging at the advertised available power, with nothing drawn,
      brings the store to its maximum less one step of standing loss (never
      below the minimum) whenever the available power was limited by
      temperature rather than by rating; a store at or below ambient loses
      nothing and so lands exactly on its maximum. */
  lemma {:induction false} AvailableChargeFills(t: TesParams, dt: real, s: TesState)
    requires TesValid(t) && dt > 0.0 && InBounds(t, s)
    requires t.powerChargeMax >= 0.0 && t.powerDischargeMax >= 0.0
    ensures AvailableCharge(t, dt, s) < t.powerChargeMax ==>
              UpdateTemperature(t, dt, s, AvailableCharge(t, dt, s), 0.0).temp ==
              Max(t.tempMax - Degrees(HeatLoss(t, s.temp), dt, Capacitance(t)), t.tempMin)
    ensures AvailableCharge(t, dt, s) < t.powerChargeMax && s.temp <= t.tempAmbient ==>
              UpdateTemperature(t, dt, s, AvailableCharge(t, dt, s), 0.0).temp == t.tempMax
  {
    var q := AvailableCharge(t, dt, s);
    var cap := Capacitance(t);
    var loss := HeatLoss(t, s.temp);
    var net := ChargeFlow(t, q) - DischargeFlow(t, 0.0) - loss;
    assert UpdateTemperature(t, dt, s, q, 0.0).temp == Clip(s.temp + Degrees(net, dt, cap), t.tempMin, t.tempMax);
    if q < t.powerChargeMax {
      assert net == q - loss by {
        assert ChargeFlow(t, q) == q;
        assert DischargeFlow(t, 0.0) == 0.0;
      }
      DegreesSplit(q, loss, dt, cap);
      DegreesMonotone(0.0, loss, dt, cap);
      assert Degrees(0.0, dt, cap) == 0.0;
      assert s.temp + Degrees(net, dt, cap) == t.tempMax - Degrees(loss, dt, cap);
    }
  }

  /** Discharging at the advertised available power, with nothing charged,
      lands the temperature exactly on its minimum whenever the available
      power was limited by temperature rather than by rating: a store above
      ambient loses heat on top of the draw, which the clip at the minimum
      absorbs. */
  lemma {:induction false} AvailableDischargeEmpties(t: TesParams, dt: real, s: TesState)
    requires TesValid(t) && dt > 0.0 && InBounds(t, s)
    requires t.powerChargeMax >= 0.0 && t.powerDischargeMax >= 0.0
    ensures AvailableDischarge(t, dt, s) < t.powerDischargeMax ==>
              UpdateTemperature(t, dt, s, 0.0, AvailableDischarge(t, dt, s)).temp == t.tempMin
  {
    var q := AvailableDischarge(t, dt, s);
    var cap := Capacitance(t);
    var net := ChargeFlow(t, 0.0) - DischargeFlow(t, q) - HeatLoss(t, s.temp);
    assert UpdateTemperature(t, dt, s, 0.0, q).temp == Clip(s.temp + Degrees(net, dt, cap), t.tempMin, t.tempMax);
    if q < t.powerDischargeMax {
      assert net <= -q by {
        assert DischargeFlow(t, q) == q;
        assert ChargeFlow(t, 0.0) == 0.0;
      }
      DegreesMonotone(net, -q, dt, cap);
      DegreesNegate(q, dt, cap);
      assert s.temp + Degrees(net, dt, cap) <= t.tempMin;
    }
  }

  lemma DegreesSplit(a: real, b: real, dt: real, cap: real)
    requires cap > 0.0
    ensures Degrees(a - b, dt, cap) == Degrees(a, dt, cap) - Degrees(b, dt, cap)
  {
  }

  lemma DegreesNegate(q: real, dt: real, cap: real)
    requires cap > 0.0
    ensures Degrees(-q, dt, cap) == -Degrees(q, dt, cap)
  {
  }
}
